=== FILE: README.md ===
# Bookstore orders and payments, modelled in Dafny

The bookstore sells one book per order. A buyer fills in the checkout form. The
backend records a Pending order for the book, at the book's price plus a fixed
delivery charge of 50. A Razorpay order is then opened for the total in paise.
When Razorpay checkout calls back with a signed payment, the order becomes Paid,
gets a delivery date five to seven days ahead, and the book loses one copy of
stock. A reported failure marks the order Failed. The catalogue controller lists,
reads, creates, updates and deletes books.

The server exists twice, as an Express/Mongoose backend and as a FastAPI/Motor
backend, over the same two MongoDB collections. The model keeps both. Where they
differ, it states each one's behaviour separately.

Layout, one Dafny module per file:

| file | module | models |
|---|---|---|
| common.dfy | Common | `Option`, and `Response` (a value or an HTTP status with a message) |
| text.dfy | Text | JavaScript white space and `trim`, decimal digit strings, the 24-hex ObjectId test (also `validate_object_id` of server/utils/helpers.py) |
| order_model.dfy | OrderModel | server/models/order.py and server/models/Order.js |
| book_model.dfy | BookModel | server/models/book.py and server/models/Book.js |
| store.dfy | Store | the shared database as a `Database` class with an `orders` map keyed by `orderId` and a `books` map keyed by `_id`; lookup by `_id`; newest-first ordering |
| gateway.dfy | Gateway | Razorpay request and reply, the callback signature, the Paid and Failed transitions, the stock decrement |
| payment_js.dfy | PaymentJs | server/controllers/paymentController.js |
| payment_py.dfy | PaymentPy | server/controllers/payment_controller.py |
| orders_js.dfy | OrdersJs | server/controllers/orderController.js |
| orders_py.dfy | OrdersPy | server/controllers/order_controller.py |
| books_py.dfy | BooksPy | server/controllers/book_controller.py |
| helpers.dfy | Helpers | `serialize_doc` of server/utils/helpers.py, which no handler calls |
| checkout.dfy | Checkout | the form logic of src/pages/Checkout.jsx |
| scenarios.dfy | Scenarios | sequences of requests against one database |

Each controller handler is a method on a `Database`. A handler that writes has
`modifies db`, and its `ensures` gives the new `orders` and `books` maps in terms
of the old ones for every branch. The outside world is passed in as parameters:

- the clock (`now`, in milliseconds);
- the random draws (`Math.random()` as a real in [0, 1); `random.randint` as its result);
- the `_id` MongoDB assigns;
- the Razorpay client, a function from request to reply;
- HMAC-SHA256, a function from (secret, text) to hex digest.

## Model

| member | source | states |
|---|---|---|
| Text.Trim | src/pages/Checkout.jsx:64-75 | the trimmed value is no longer than the input, neither begins nor ends with white space, and is empty exactly when the input is all white space |
| Text.TrimCutsOnlySpace | src/pages/Checkout.jsx:64-68 | the trimmed value is a contiguous slice of the input, and everything cut off on either side is white space |
| Text.TrimIdempotent | server/models/Book.js:4-8 | trimming a title that is already trimmed changes nothing |
| Text.DecimalRoundTrip | server/controllers/orderController.js:26 | the decimal rendering of a number parses back to that number |
| Text.NatToStringInjective | server/controllers/orderController.js:26 | different numbers have different decimal renderings |
| Text.DigitCount | server/controllers/order_controller.py:28 | a number from 100 to 999 is rendered with exactly three digits |
| Text.NatToString | server/controllers/orderController.js:26 | the decimal rendering used in the order id: at least one character, digits only, and a leading '0' only for the number 0 |
| Text.IsValidObjectId | server/utils/helpers.py:39-49 | `ObjectId.is_valid` on a string: exactly 24 hexadecimal characters |
| Text.Utf16Length | src/pages/Checkout.jsx:66 | JavaScript `.length`: between the number of characters and twice that, and equal to it when every character lies in the Basic Multilingual Plane |
| Text.AstralCharsCountTwice | src/pages/Checkout.jsx:66 | two characters outside the Basic Multilingual Plane have `.length` 4 |
| OrderModel.ParseStatus | server/models/Order.js:56-60 | a stored status string is accepted exactly when it is one of Pending, Paid and Failed, and it is read as the status of that name |
| OrderModel.StatusRoundTrip | server/models/order.py:22-25 | reading the name of any status gives back that status |
| OrderModel.ValidateUserDetailsPy | server/models/order.py:27-31 | user details are accepted exactly when the pincode has length 6 and the mobile length 10; they are accepted unchanged; a rejection is 422 |
| OrderModel.PincodeCheckIsLengthOnly | server/models/order.py:30 | the pincode rule checks the length only: "abcdef" is accepted |
| OrderModel.UserDetailsJsOk | server/models/Order.js:9-30 | the Mongoose `required` rule on the five user-details strings: each is present and non-empty |
| OrderModel.ValidateObjectId | server/models/order.py:12-16 | a value is accepted exactly when it is 24 hexadecimal characters, and it is accepted unchanged |
| OrderModel.NewOrder | server/models/Order.js:31-68 | a new order is Pending, has no payment id, signature, delivery date or Razorpay id, is charged 50 for delivery, totals price + 50, keeps the order invariant, and carries its creation time in both timestamps |
| BookModel.ValidateBookPy | server/models/book.py:21-27 | a book body is accepted exactly when title and description are non-empty and price and stock are non-negative; an absent stock becomes 0; every other field is kept; a rejection is 422 |
| BookModel.ValidateBookJs | server/models/Book.js:3-33 | a book is accepted exactly when its trimmed title, description, image and author are non-empty and price and stock are not negative; the stored title is the trimmed one; stock defaults to 0 |
| BookModel.JsBookPassesPy | server/models/book.py:21-27 | every book the Mongoose schema accepts is accepted by the Pydantic model as well |
| BookModel.CreationKey | server/controllers/book_controller.py:12 | the sort key of `created_at` is 0 exactly when the field is missing |
| BookModel.CreationKeyOrder | server/controllers/book_controller.py:12 | comparing sort keys is MongoDB's descending comparison of `created_at`, a missing field lowest, in both directions |
| BookModel.MissingCreationSortsLast | server/controllers/book_controller.py:12 | a book without `created_at` ranks strictly below a book with one |
| BookModel.BookJsOk | server/models/Book.js:3-30 | the Mongoose validators `save()` runs on a loaded book: title, description, image and author non-empty, price and stock at least 0 |
| Store.Database.Populate | server/controllers/orderController.js:59 | the joined record carries the order, and carries its book exactly when that book still exists |
| Store.Database.PopulateAll | server/controllers/orderController.js:84 | one joined record per key, each the populated order stored under that key, in the order of the keys |
| Store.Database.FindOrderById | server/controllers/orderController.js:59 | finds an order whose `_id` is the given one, or reports that there is none |
| Store.InsertByScore | server/controllers/orderController.js:84 | inserting a key into a newest-first list keeps it newest first, adds exactly that key, and keeps the keys distinct |
| Store.SortNewestFirst | server/controllers/orderController.js:84 | every key exactly once, in order of non-increasing creation time |
| Store.TakeNewest | server/controllers/order_controller.py:98-101 | at most n keys, newest first and distinct; a key left out is no newer than any kept key, and it is left out only when n keys were kept |
| Gateway.SignedText | server/controllers/paymentController.js:69 | the signed text is the gateway order id, a '\|' and the payment id |
| Gateway.SignedTextDeterminesIds | server/controllers/payment_controller.py:70 | if gateway order ids contain no '\|', equal signed texts have the same gateway order id and the same payment id |
| Gateway.SignatureMatches | server/controllers/paymentController.js:69-75 | the callback is authentic exactly when its signature equals the HMAC-SHA256 hex digest, under the shared secret, of the order id, '\|' and the payment id |
| Gateway.DeliveryDate | server/controllers/payment_controller.py:88-89 | for five to seven days, the delivery date lies between five and seven days after now |
| Gateway.PaidOrder | server/controllers/paymentController.js:93-101 | the order becomes Paid, with the payment id, the signature and the delivery date recorded; no other field but `updatedAt` changes; the order invariant is preserved |
| Gateway.FailedOrder | server/controllers/payment_controller.py:137-145 | the order becomes Failed whatever its status was; no other field but `updatedAt` changes; the order invariant is preserved |
| Gateway.AfterSale | server/controllers/paymentController.js:106-110 | stock drops by one exactly when it is positive; it is never taken from non-negative to negative; nothing but stock and `updatedAt` changes |
| Gateway.RepeatedSales | server/controllers/payment_controller.py:105-113 | n verified payments for one book remove min(n, stock) copies: stock floors at zero, and nothing refuses the sale of a copy that is no longer there |
| PaymentJs.AmountInPaise | server/controllers/paymentController.js:30 | the amount sent is the total times 100, with nothing rounded |
| PaymentJs.DeliveryDays | server/controllers/paymentController.js:98 | five to seven days; five exactly when the draw is below 1/3 and seven exactly when it is at least 2/3 |
| PaymentJs.DeliveryDaysReachable | server/controllers/paymentController.js:98 | each of 5, 6 and 7 days is drawn for some value of `Math.random()` |
| PaymentJs.Save | server/models/Order.js:69-71 | a save writes the edited fields and moves `updatedAt` to now only when some field actually changed; it preserves the order invariant |
| PaymentJs.CreatePaymentOrder | server/controllers/paymentController.js:14-61 | unknown order: 404 and no gateway call. Book gone: 500 and no gateway call. Otherwise one request is sent (total times 100, INR, the order id as receipt, the book title as a note). A gateway failure is a 500 that writes nothing, and so is a stored order whose user details fail Mongoose's `required` on `save()`. On success the order records the Razorpay id and the reply is the id, amount and currency Razorpay returned. Books never change. |
| PaymentJs.VerifyPayment | server/controllers/paymentController.js:64-138 | bad signature: 400, nothing written. Unknown order: 404, nothing written. Stored user details failing `required`: 500, nothing written. Otherwise the order is saved as Paid with a delivery date 5 to 7 days ahead. If the book is gone, the order stays Paid and the reply is 500. If the decremented book fails its schema, the order stays Paid, stock is unchanged and the reply is 500. Otherwise the book is sold once (only when stock is positive) and the receipt is returned. Stock never goes negative. |
| PaymentJs.PaymentFailed | server/controllers/paymentController.js:141-163 | 500 with nothing written exactly when the order exists and its user details fail `required` on `save()`. Otherwise success: an existing order becomes Failed, even one already Paid, and an unknown order changes nothing. |
| PaymentPy.TruncateToInt | server/controllers/payment_controller.py:33 | `int(x)` rounds toward zero: the result is within one of x, on the side of zero |
| PaymentPy.AmountInPaise | server/controllers/payment_controller.py:33 | the amount sent is the total times 100 with any fraction of a paisa dropped toward zero |
| PaymentPy.AmountsAgree | server/controllers/payment_controller.py:33 | the two backends request the same amount exactly when the total is a whole number of paise |
| PaymentPy.CreatePaymentOrder | server/controllers/payment_controller.py:19-58 | unknown order: 404 and no gateway call. Otherwise one request is sent even when the book is gone, with the total truncated to paise and an empty title note in that case. A gateway failure is a 500 that writes nothing. On success the order records the Razorpay id and `updatedAt`. Books never change. |
| PaymentPy.VerifyPayment | server/controllers/payment_controller.py:60-131 | bad signature: 400, nothing read or written. Unknown order: 404. Otherwise the order becomes Paid with a delivery date `days` ahead. An existing book is sold once. A missing book still gives a success, with an empty title. Stock never goes negative. |
| PaymentPy.PaymentFailed | server/controllers/payment_controller.py:133-150 | 404 exactly when no document is modified: the order is unknown, or is already Failed with the same `updatedAt`. Otherwise the order becomes Failed, even one that was Paid. |
| OrdersJs.OrderId | server/controllers/orderController.js:26 | the id is "ORD" followed by digits only: the timestamp's digits, then the suffix's |
| OrdersJs.Suffix | server/controllers/orderController.js:26 | the suffix is `floor(r * 1000)`, a number from 0 to 999 |
| OrdersJs.OrderIdInjective | server/controllers/orderController.js:26 | for timestamps of equal width, equal ids mean equal timestamps and equal suffixes |
| OrdersJs.OrderIdAmbiguousAcrossWidths | server/controllers/orderController.js:26 | across widths the id is ambiguous: timestamp 1 with suffix 23 and timestamp 12 with suffix 3 both give "ORD123" |
| OrdersJs.CreateOrder | server/controllers/orderController.js:5-54 | malformed book id: 500. Unknown book: 404. Stock below one: 400. Missing user details or an id already taken: 500. Otherwise the new Pending order at price + 50 is inserted under its id. Stock is not reserved and books never change. |
| OrdersJs.GetOrderById | server/controllers/orderController.js:57-79 | malformed id: 500. 404 exactly when no order has that `_id`. Otherwise the order is returned joined to its book, which may be gone. |
| OrdersJs.GetAllOrders | server/controllers/orderController.js:82-97 | every stored order appears exactly once, joined to its book, newest first |
| OrdersPy.OrderId | server/controllers/order_controller.py:28 | the id is "ORD", then the decimal time in whole seconds (the milliseconds divided by 1000), then the three-digit suffix; all after "ORD" is digits |
| OrdersPy.OrderIdInjective | server/controllers/order_controller.py:28 | because the suffix always has three digits, equal ids mean the same second and the same suffix, at any width of the time |
| OrdersPy.CreateOrder | server/controllers/order_controller.py:11-54 | malformed book id: 400. Unknown book: 404. Stock below one: 400. Duplicate id: 500. Otherwise the new Pending order at price + 50 is inserted. Books never change. |
| OrdersPy.GetOrderById | server/controllers/order_controller.py:56-82 | malformed id: 400. 404 exactly when no order with that `_id` has a book that still exists. Otherwise the order is returned joined to its book. |
| OrdersPy.GetOrderByOrderId | server/controllers/order_controller.py:104-126 | 404 exactly when the order is unknown or its book is gone; otherwise the order joined to its book |
| OrdersPy.GetAllOrders | server/controllers/order_controller.py:84-102 | at most 100 orders, all with an existing book, distinct and newest first. An order with a book that is left out is no newer than every order listed, and the list is full. |
| BooksPy.GetAllBooks | server/controllers/book_controller.py:9-13 | at most 100 stored books, all in stock and distinct, sorted on `created_at` newest first, with books that lack the field (those inserted through Mongoose) after all others. A book in stock that is left out ranks no higher than every book listed, and the list is full. |
| BooksPy.GetBookById | server/controllers/book_controller.py:15-26 | malformed id: 400. Unknown id: 404. Otherwise the stored book with that id. |
| BooksPy.CreateBook | server/controllers/book_controller.py:28-39 | the validated book is stored under its new id with `created_at` and `updated_at` set to now; nothing else changes; stock stays non-negative |
| BooksPy.ApplyUpdate | server/controllers/book_controller.py:54-61 | each provided field takes its new value and each absent one keeps the old; id and `created_at` never change; `updated_at` moves exactly when some field is provided |
| BooksPy.EmptyUpdateIsNoOp | server/controllers/book_controller.py:56-64 | an update that provides no field leaves the book as it was |
| BooksPy.UpdateIdempotent | server/controllers/book_controller.py:54-61 | applying the same update twice at the same time is applying it once |
| BooksPy.UpdateCanBreakConstraints | server/models/book.py:32-38 | an update can store a negative stock, a negative price and an empty title, which creation forbids |
| BooksPy.UpdateBook | server/controllers/book_controller.py:41-64 | malformed id: 400. Unknown id: 404. Neither writes. Otherwise the book becomes the update applied to it and is returned. An update that provides nothing writes nothing. |
| BooksPy.DeleteBook | server/controllers/book_controller.py:66-78 | malformed id: 400. Unknown id: 404. Otherwise exactly that book is removed. Orders are untouched. |
| Helpers.Serialize | server/utils/helpers.py:7-37 | None stays None. A list becomes the list of its serialized items. A dictionary keeps its keys in order, and each value becomes what the per-entry step makes of it. Every other value is returned as it is. |
| Helpers.SerializeValue | server/utils/helpers.py:27-35 | an ObjectId field value becomes its hex string. A nested dictionary is serialized. A list field keeps its length, keeps every item that is not a dictionary, and serializes every item that is. Scalars are kept. |
| Helpers.SerializedFieldsAreClean | server/utils/helpers.py:26-35 | after serializing, no field value is an ObjectId: not in the document, not in any dictionary nested as a field value, and not in any dictionary that is an item of a list field, at any depth |
| Helpers.ListFieldObjectIdKept | server/utils/helpers.py:32-33 | an ObjectId inside a list-valued field is not converted |
| Helpers.TopLevelListObjectIdKept | server/utils/helpers.py:20-21 | an ObjectId item of a top-level list is not converted |
| Helpers.SerializeIdempotent | server/utils/helpers.py:7-37 | serializing a serialized document changes nothing |
| Helpers.SerializeDoc | server/utils/helpers.py:7-37 | the recursive, loop-by-loop procedure computes exactly `Serialize` |
| Checkout.Set | src/pages/Checkout.jsx:46-49 | the named field takes the new value and every other field is unchanged |
| Checkout.EmailShapeIsRegex | src/pages/Checkout.jsx:92-96 | the direct email check accepts exactly the strings the regular expression `^[^\s@]+@[^\s@]+\.[^\s@]+$` matches |
| Checkout.FieldError | src/pages/Checkout.jsx:62-96 | a field gets a message exactly when its value is blank or breaks its rule: the "required" message when blank, the rule's message otherwise |
| Checkout.Check | src/pages/Checkout.jsx:62-96 | a field has a message exactly when it is blank or fails its rule: "required" when blank, the rule's message otherwise |
| Checkout.FieldErrorMeaning | src/pages/Checkout.jsx:60-96 | when each field fails: full name under 3 UTF-16 code units after trimming, address under 10, pincode not exactly 6 digits, mobile not exactly 10 digits, email not matching the regular expression |
| Checkout.AstralNameIsLongEnough | src/pages/Checkout.jsx:64-68 | a two-character name with one character outside the Basic Multilingual Plane counts 3 code units and passes the full-name check |
| Checkout.CollectErrors | src/pages/Checkout.jsx:61-97 | the loop over the five fields records a message for a field exactly when that field's check yields one, and records that message |
| Checkout.ValidateForm | src/pages/Checkout.jsx:60-100 | a field has an error exactly when its check fails, with that check's message; the form is valid exactly when no field fails, that is when the error map is empty |
| Checkout.HandleChange | src/pages/Checkout.jsx:44-58 | the named field takes the new value and no other field changes; that field's error is cleared to the empty string; every other error is kept |
| Checkout.HandleSubmit | src/pages/Checkout.jsx:102-117 | the form is posted exactly when validation leaves no error. It is posted unchanged with the book id. A posted form meets the Mongoose `required` rules and the Pydantic length rules. |
| Checkout.SubmittedFormIsAccepted | src/pages/Checkout.jsx:112-117 | a form that passes every check is accepted by the Mongoose `required` rules and the Pydantic length rules |
| Scenarios.ReplayedVerificationJs | server/controllers/paymentController.js:92-110 | replaying one valid callback twice succeeds twice and takes two copies out of stock |
| Scenarios.ReplayedVerificationPy | server/controllers/payment_controller.py:91-113 | the same replay against the FastAPI backend also takes two copies |
| Scenarios.UnknownOrderFailure | server/controllers/payment_controller.py:147-148 | a failure reported for an unknown order is a success in Express and a 404 in FastAPI; neither writes |
| Scenarios.FailureAfterPaymentJs | server/controllers/paymentController.js:145-150 | in Express, a failure reported after a payment turns Paid into Failed and keeps the recorded payment id and delivery date |
| Scenarios.FailureAfterPaymentPy | server/controllers/payment_controller.py:137-150 | the same overwrite of Paid by Failed in FastAPI |
| Scenarios.PythonOrderPaidThroughExpress | server/controllers/paymentController.js:93-103 | an order placed through FastAPI with an empty name gets a 500 from the Express verify handler, which writes nothing, while the FastAPI handler accepts the same callback and sells the copy |
| Scenarios.PlaceAndPayJs | server/controllers/orderController.js:26-40 | placing an order and paying it ends with the order Paid at price + 50 and one copy fewer in stock, exactly when Razorpay opens the order |

## Left out

- Floating point. Prices and totals are exact reals. `totalAmount * 100` in JavaScript, and `int(total * 100)` in Python, can round differently on binary doubles (0.29 * 100 is 28.999999999999996, so Python sends 28 paise).
- PaymentJs.AmountInPaise: the model does not reproduce that binary rounding. Its exact product is what a decimal total gives.
- PaymentPy.AmountInPaise: the model truncates the exact product, so a total of 0.29 gives 29 paise, where Python's `int(0.29 * 100)` gives 28.
- HMAC-SHA256 and hex digests are a function parameter. Only "the signature equals the digest of the signed text" is modelled, not the hash itself.
- The Razorpay client is a function parameter. Its own validation of amounts, network failures and retries are not modelled. Any exception it throws is the `Unavailable` reply.
- The confirmation email of both verify handlers is left out: its failure is caught and never changes the reply or the database.
- Concurrency: handlers run one at a time. Interleavings of two requests (two sales of the last copy, or an update between a read and a write) are not modelled.
- Gateway.DeliveryDate: JavaScript's `setDate` adds calendar days in local time, which is 23 or 25 hours across a daylight-saving change. The model adds whole 24-hour days, which is what Python's `timedelta` does.
- Dates are milliseconds as integers. ISO formatting of the delivery date is not modelled.
- Text.IsValidObjectId: bson's `ObjectId.is_valid` decodes with `bytes.fromhex`, which also skips white space, and Mongoose's cast also accepts any 12-character string as 12 raw bytes. The model accepts exactly 24 hexadecimal characters. For the JavaScript handlers, any other string is the CastError 500.
- Ids are compared as strings. Upper- and lower-case hex spellings of one ObjectId are treated as different ids.
- OrderModel.ValidateUserDetailsPy: `EmailStr` (email-validator's syntax and deliverability rules) is not modelled; only the two length constraints are.
- Pydantic's alias handling (`fullName` vs `full_name`) is not modelled; details have one field name each.
- Mongoose's casting of non-string values is not modelled; request bodies and stored documents are typed values. The validators modelled are `required` on the user details, checked by `Order.create` and by every `order.save()`, and the book schema's `required` and `min`, checked by `book.save()`.
- The `_id` MongoDB assigns is a parameter. `BooksPy.CreateBook`, `OrdersJs.CreateOrder` and `OrdersPy.CreateOrder` require it to be unused, as MongoDB guarantees, so they keep `Database.OrderIdsDistinct`: no two orders share an `_id`.
- A Python duplicate `orderId` is modelled as the 500 of the unique index declared in server/models/Order.js, which the shared collection carries.
- A book's Mongoose `createdAt` is not modelled: no handler reads it. A book has one last-write time, `updatedAt`. The FastAPI writes set `updated_at` and Mongoose's `book.save()` sets `updatedAt`; both are that one field here.
- `book.get("stock", 0)`: a book always has a stock in the model, so a missing stock field cannot occur.
- The `$lookup` pipelines are modelled by their effect only: a join on `bookId`, `$unwind` dropping orders whose book is gone, sorting and `to_list(100)`. `get_all_orders` sorts on `createdAt`, which both backends write on orders. `get_all_books` sorts on `created_at`, which only the FastAPI side writes, so books inserted through Mongoose come last (`Book.pyCreatedAt`).
- Equal creation times may be listed in any order, as MongoDB does not promise one.
- Routes are left out. The `OrdersPy`, `BooksPy` and `PaymentPy` members return what the controller returns, not the HTTP answer. The 500 that server/routes/payment_routes.py makes of other exceptions is included. Route wiring, CORS and the response envelope (`success`, `data`) are left out.
- FastAPI's JSON encoding of the answer is left out. The FastAPI book and order routes declare `response_model=None` and return raw Motor documents, whose `_id` and `bookId` are `bson.ObjectId`. FastAPI's `jsonable_encoder` has no encoder for that type, and nothing calls `serialize_doc`. So, as written, those routes would answer 500 after the controller returns: for `create_order`, `create_book` and `update_book`, after the write. The model's `Ok` in `OrdersPy.CreateOrder`, `OrdersPy.GetOrderById`, `OrdersPy.GetOrderByOrderId`, `OrdersPy.GetAllOrders`, `BooksPy.GetAllBooks`, `BooksPy.GetBookById`, `BooksPy.CreateBook`, `BooksPy.UpdateBook` and `Scenarios.PythonOrderPaidThroughExpress` is the controller's value, not what the client receives.
- The React rendering of Checkout.jsx is left out: loading state, book fetch, navigation after submit, `maxLength` and `type="email"` browser checks. So are the error path of the axios post and the other pages.
- Helpers.Serialize: `datetime` values are left as they are, as the function does; the `Doc` type has no separate datetime case and numbers stand in for them.

=== FILE: book_model.dfy ===
/** The book record as both backends declare it: the Pydantic models of
    server/models/book.py and the Mongoose schema of server/models/Book.js. */
module BookModel {
  import opened Common
  import opened Text

  /** A stored book. `id` is MongoDB's `_id`; times are milliseconds.
      `pyCreatedAt` is the `created_at` field, which only the FastAPI side writes:
      a book inserted through Mongoose has none. `updatedAt` is the last write,
      whichever side made it. */
  datatype Book = Book(
    id: string,
    title: string,
    description: string,
    price: real,
    image: string,
    stock: int,
    author: string,
    pyCreatedAt: Option<nat>,
    updatedAt: int)

  /** MongoDB's descending sort on `created_at` ranks `a` no lower than `b`: a
      missing field sorts as null, below every time. */
  predicate NoOlderThan(a: Book, b: Book)
  {
    b.pyCreatedAt.None? || (a.pyCreatedAt.Some? && a.pyCreatedAt.value >= b.pyCreatedAt.value)
  }

  /** `created_at` as one number for sorting: 0 when the field is missing. */
  function CreationKey(b: Book): (r: nat)
    ensures r == 0 <==> b.pyCreatedAt.None?
  {
    if b.pyCreatedAt.Some? then b.pyCreatedAt.value + 1 else 0
  }

  /** Comparing keys is MongoDB's comparison of `created_at`, in both directions. */
  lemma CreationKeyOrder(a: Book, b: Book)
    ensures CreationKey(a) >= CreationKey(b) <==> NoOlderThan(a, b)
  {
  }

  /** A book without `created_at` ranks below a book with one. */
  lemma MissingCreationSortsLast(a: Book, b: Book)
    requires a.pyCreatedAt.None? && b.pyCreatedAt.Some?
    ensures NoOlderThan(b, a) && !NoOlderThan(a, b)
  {
  }

  /** A request body for creating a book; `stock` may be left out. */
  datatype BookInput = BookInput(title: string, description: string, price: real, image: string, stock: Option<int>, author: string)

  /** A validated `BookCreate`: the defaulted stock is filled in. */
  datatype BookCreate = BookCreate(title: string, description: string, price: real, image: string, stock: int, author: string)

  /** The constraints of `BookBase`. */
  predicate BookCreateOk(b: BookCreate)
  {
    |b.title| >= 1 && |b.description| >= 1 && b.price >= 0.0 && b.stock >= 0
  }

  /** Pydantic validation of `BookCreate` (a failure is FastAPI's 422). */
  function ValidateBookPy(b: BookInput): (r: Response<BookCreate>)
    ensures r.Ok? <==> (|b.title| >= 1 && |b.description| >= 1 && b.price >= 0.0
                        && (b.stock.None? || b.stock.value >= 0))
    ensures r.Ok? ==> BookCreateOk(r.value)
    ensures r.Ok? ==> r.value.stock == (if b.stock.Some? then b.stock.value else 0)
    ensures r.Ok? ==> r.value.title == b.title && r.value.description == b.description
                      && r.value.price == b.price && r.value.image == b.image && r.value.author == b.author
    ensures r.Error? ==> r.status == 422
  {
    var stock := if b.stock.Some? then b.stock.value else 0;
    var c := BookCreate(b.title, b.description, b.price, b.image, stock, b.author);
    if BookCreateOk(c) then Ok(c) else Error(422, "Validation error")
  }

  /** Mongoose validation of a new book: `title` is stored trimmed, the four string
      fields are required (an empty string fails `required`), `price` and `stock`
      have minimum 0 and `stock` defaults to 0. None stands for a ValidationError. */
  function ValidateBookJs(b: BookInput): (r: Option<BookCreate>)
    ensures r.Some? <==> (!IsBlank(b.title) && b.description != "" && b.image != "" && b.author != ""
                          && b.price >= 0.0 && (b.stock.None? || b.stock.value >= 0))
    ensures r.Some? ==> r.value.title == Trim(b.title) && r.value.title != []
                        && !IsSpace(r.value.title[0]) && !IsSpace(r.value.title[|r.value.title| - 1])
    ensures r.Some? ==> r.value.stock == (if b.stock.Some? then b.stock.value else 0) && r.value.stock >= 0
    ensures r.Some? ==> r.value.price == b.price && r.value.description == b.description
                        && r.value.image == b.image && r.value.author == b.author
  {
    var title := Trim(b.title);
    var stock := if b.stock.Some? then b.stock.value else 0;
    if title == [] || b.description == "" || b.image == "" || b.author == "" || b.price < 0.0 || stock < 0 then
      None
    else
      Some(BookCreate(title, b.description, b.price, b.image, stock, b.author))
  }

  /** The validators Mongoose runs when `save()` is called on a loaded book: every
      loaded path is checked, so the four strings must be non-empty (`required`)
      and price and stock at least 0 (`min`). Setters such as `trim` are not
      re-applied to loaded values. */
  predicate BookJsOk(b: Book)
  {
    b.title != "" && b.description != "" && b.image != "" && b.author != "" && b.price >= 0.0 && b.stock >= 0
  }

  /** A book that passes the Mongoose schema also passes the Pydantic one. */
  lemma JsBookPassesPy(b: BookInput)
    requires ValidateBookJs(b).Some?
    ensures ValidateBookPy(b).Ok?
  {
    assert b.title != [];
  }

  /** `BookUpdate`: every field optional, defaulting to None, with no constraints. */
  datatype BookUpdate = BookUpdate(
    title: Option<string>,
    description: Option<string>,
    price: Option<real>,
    image: Option<string>,
    stock: Option<int>,
    author: Option<string>)

  const EmptyUpdate: BookUpdate := BookUpdate(None, None, None, None, None, None)

  predicate HasChanges(u: BookUpdate)
  {
    u.title.Some? || u.description.Some? || u.price.Some? || u.image.Some? || u.stock.Some? || u.author.Some?
  }
}

=== FILE: books_py.dfy ===
/** The FastAPI catalog controller (server/controllers/book_controller.py) as
    operations on the books collection. */
module BooksPy {
  import opened Common
  import opened Text
  import opened BookModel
  import opened Store

  const ListLimit: nat := 100

  /** `get_all_books`: books in stock, at most 100, sorted on `created_at` with the
      newest first and books without that field last. A book in stock that is left
      out ranks no higher than every book listed, and the list is full. */
  method GetAllBooks(db: Database) returns (res: seq<Book>)
    requires db.Valid()
    ensures |res| <= ListLimit
    ensures forall i :: 0 <= i < |res| ==> res[i].id in db.books && db.books[res[i].id] == res[i] && res[i].stock > 0
    ensures forall i, j :: 0 <= i < j < |res| ==> NoOlderThan(res[i], res[j]) && res[i].id != res[j].id
    ensures forall k :: (k in db.books && db.books[k].stock > 0 && forall i :: 0 <= i < |res| ==> res[i].id != k) ==>
              && |res| == ListLimit
              && forall i :: 0 <= i < |res| ==> NoOlderThan(res[i], db.books[k])
  {
    var created := map k | k in db.books && db.books[k].stock > 0 :: CreationKey(db.books[k]);
    var keys := TakeNewest(created, ListLimit);
    res := [];
    var i := 0;
    while i < |keys|
      invariant 0 <= i <= |keys| && |res| == i
      invariant forall j :: 0 <= j < i ==> res[j] == db.books[keys[j]]
    {
      res := res + [db.books[keys[i]]];
      i := i + 1;
    }
    assert forall j :: 0 <= j < |keys| ==> res[j].id == keys[j];
    forall i, j | 0 <= i < j < |res|
      ensures NoOlderThan(res[i], res[j]) && res[i].id != res[j].id
    {
      assert created[keys[i]] >= created[keys[j]];
      CreationKeyOrder(res[i], res[j]);
    }
    forall k | k in db.books && db.books[k].stock > 0 && (forall i :: 0 <= i < |res| ==> res[i].id != k)
      ensures |res| == ListLimit
      ensures forall i :: 0 <= i < |res| ==> NoOlderThan(res[i], db.books[k])
    {
      assert k in created;
      forall i | 0 <= i < |res|
        ensures NoOlderThan(res[i], db.books[k])
      {
        CreationKeyOrder(res[i], db.books[k]);
      }
    }
  }

  /** `get_book_by_id`: 400 for a malformed id, 404 for an unknown one. */
  method GetBookById(db: Database, id: string) returns (res: Response<Book>)
    requires db.Valid()
    ensures !IsValidObjectId(id) ==> res == Error(400, "Invalid book ID")
    ensures IsValidObjectId(id) && id !in db.books ==> res == Error(404, "Book not found")
    ensures res.Ok? <==> IsValidObjectId(id) && id in db.books
    ensures res.Ok? ==> res.value == db.books[id] && res.value.id == id
  {
    if !IsValidObjectId(id) {
      return Error(400, "Invalid book ID");
    }
    if id !in db.books {
      return Error(404, "Book not found");
    }
    res := Ok(db.books[id]);
  }

  /** `create_book` after FastAPI has validated the body as a `BookCreate`. `newId` is
      the fresh `_id` MongoDB assigns. `created_at` and `updated_at` are the creation
      time. */
  method CreateBook(db: Database, data: BookCreate, newId: string, now: nat) returns (res: Book)
    requires db.Valid() && BookCreateOk(data) && newId !in db.books
    modifies db
    ensures db.Valid() && db.orders == old(db.orders)
    ensures old(db.StockNonNegative()) ==> db.StockNonNegative()
    ensures res == Book(newId, data.title, data.description, data.price, data.image, data.stock, data.author, Some(now), now)
    ensures db.books == old(db.books)[newId := res]
  {
    res := Book(newId, data.title, data.description, data.price, data.image, data.stock, data.author, Some(now), now);
    db.books := db.books[newId := res];
  }

  /** The stored book after `$set` of the non-None fields of an update; `updated_at`
      is written only when at least one field is set. */
  function ApplyUpdate(b: Book, u: BookUpdate, now: int): (r: Book)
    ensures r.title == (if u.title.Some? then u.title.value else b.title)
    ensures r.description == (if u.description.Some? then u.description.value else b.description)
    ensures r.price == (if u.price.Some? then u.price.value else b.price)
    ensures r.image == (if u.image.Some? then u.image.value else b.image)
    ensures r.stock == (if u.stock.Some? then u.stock.value else b.stock)
    ensures r.author == (if u.author.Some? then u.author.value else b.author)
    ensures r.id == b.id && r.pyCreatedAt == b.pyCreatedAt
    ensures r.updatedAt == (if HasChanges(u) then now else b.updatedAt)
  {
    if !HasChanges(u) then b
    else
      b.(title := if u.title.Some? then u.title.value else b.title,
         description := if u.description.Some? then u.description.value else b.description,
         price := if u.price.Some? then u.price.value else b.price,
         image := if u.image.Some? then u.image.value else b.image,
         stock := if u.stock.Some? then u.stock.value else b.stock,
         author := if u.author.Some? then u.author.value else b.author,
         updatedAt := now)
  }

  /** An update that sets nothing writes nothing. */
  lemma EmptyUpdateIsNoOp(b: Book, now: int)
    ensures ApplyUpdate(b, EmptyUpdate, now) == b
  {
  }

  /** Applying the same update twice at the same time is applying it once. */
  lemma UpdateIdempotent(b: Book, u: BookUpdate, now: int)
    ensures ApplyUpdate(ApplyUpdate(b, u, now), u, now) == ApplyUpdate(b, u, now)
  {
  }

  /** `BookUpdate` carries none of `BookBase`'s constraints: an update can store a
      negative stock or price and an empty title. */
  lemma UpdateCanBreakConstraints(b: Book, now: int)
    ensures var r := ApplyUpdate(b, BookUpdate(Some(""), None, Some(-1.0), None, Some(-1), None), now);
            r.stock < 0 && r.price < 0.0 && r.title == ""
  {
  }

  /** `update_book`: 400 for a malformed id, 404 for an unknown one; otherwise only
      the provided fields change, and the stored book is returned. */
  method UpdateBook(db: Database, id: string, u: BookUpdate, now: int) returns (res: Response<Book>)
    requires db.Valid()
    modifies db
    ensures db.Valid() && db.orders == old(db.orders)
    ensures !IsValidObjectId(id) ==> res == Error(400, "Invalid book ID") && db.books == old(db.books)
    ensures IsValidObjectId(id) && id !in old(db.books) ==> res == Error(404, "Book not found") && db.books == old(db.books)
    ensures IsValidObjectId(id) && id in old(db.books) ==>
              && db.books == old(db.books)[id := ApplyUpdate(old(db.books)[id], u, now)]
              && res == Ok(db.books[id])
    ensures !HasChanges(u) ==> db.books == old(db.books)
  {
    if !IsValidObjectId(id) {
      return Error(400, "Invalid book ID");
    }
    if id !in db.books {
      return Error(404, "Book not found");
    }
    var existing := db.books[id];
    if HasChanges(u) {
      db.books := db.books[id := ApplyUpdate(existing, u, now)];
    }
    res := Ok(db.books[id]);
  }

  /** `delete_book`: 400 for a malformed id, 404 when nothing was deleted. Orders that
      name the book are kept and lose their join. */
  method DeleteBook(db: Database, id: string) returns (res: Response<bool>)
    requires db.Valid()
    modifies db
    ensures db.Valid() && db.orders == old(db.orders)
    ensures !IsValidObjectId(id) ==> res == Error(400, "Invalid book ID") && db.books == old(db.books)
    ensures IsValidObjectId(id) && id !in old(db.books) ==> res == Error(404, "Book not found") && db.books == old(db.books)
    ensures IsValidObjectId(id) && id in old(db.books) ==> res == Ok(true) && db.books == old(db.books) - {id}
  {
    if !IsValidObjectId(id) {
      return Error(400, "Invalid book ID");
    }
    if id !in db.books {
      return Error(404, "Book not found");
    }
    db.books := db.books - {id};
    res := Ok(true);
  }
}

=== FILE: checkout.dfy ===
/** The checkout form of src/pages/Checkout.jsx: its five fields, the per-field
    validation run on submit, the change handler that edits one field and clears
    its error, and the submit guard. */
module Checkout {
  import opened Common
  import opened Text
  import opened OrderModel

  /** The `name` attribute of each input. */
  datatype Field = FullName | Address | Pincode | Mobile | Email

  /** The form state has the shape of the `userDetails` it is posted as. */
  function Get(form: UserDetails, f: Field): string
  {
    match f
    case FullName => form.fullName
    case Address => form.address
    case Pincode => form.pincode
    case Mobile => form.mobile
    case Email => form.email
  }

  /** `{ ...prev, [name]: value }`. */
  function Set(form: UserDetails, f: Field, value: string): (r: UserDetails)
    ensures Get(r, f) == value
    ensures forall g :: g != f ==> Get(r, g) == Get(form, g)
  {
    match f
    case FullName => form.(fullName := value)
    case Address => form.(address := value)
    case Pincode => form.(pincode := value)
    case Mobile => form.(mobile := value)
    case Email => form.(email := value)
  }

  /** `/^\d{n}$/.test(s)`: exactly `n` ASCII digits and nothing else. */
  predicate DigitsOfLength(s: string, n: nat)
  {
    |s| == n && forall i :: 0 <= i < |s| ==> IsDigit(s[i])
  }

  /** A character of the class `[^\s@]`. */
  predicate PartChar(c: char)
  {
    !IsSpace(c) && c != '@'
  }

  ghost predicate Part(s: string)
  {
    |s| >= 1 && forall i :: 0 <= i < |s| ==> PartChar(s[i])
  }

  /** `/^[^\s@]+@[^\s@]+\.[^\s@]+$/` read as a regular expression: some '@' at `a`
      and some '.' at `k` split the string into three non-empty runs of `[^\s@]`. */
  ghost predicate EmailRegex(s: string)
  {
    exists a, k :: 0 <= a < k < |s| && s[a] == '@' && s[k] == '.'
                   && Part(s[..a]) && Part(s[a + 1..k]) && Part(s[k + 1..])
  }

  /** The same test as a direct check: no white space, exactly one '@', which is not
      the first character, and a '.' after it that is neither right after the '@'
      nor the last character. */
  predicate EmailShape(s: string)
  {
    && (forall i :: 0 <= i < |s| ==> !IsSpace(s[i]))
    && (exists a :: 0 < a < |s| && s[a] == '@'
          && (forall j :: 0 <= j < |s| && j != a ==> s[j] != '@')
          && (exists k :: a + 1 < k < |s| - 1 && s[k] == '.'))
  }

  lemma SliceIsPart(s: string, lo: nat, hi: nat)
    requires lo < hi <= |s|
    requires forall i :: lo <= i < hi ==> PartChar(s[i])
    ensures Part(s[lo..hi])
  {
    forall i | 0 <= i < hi - lo
      ensures PartChar(s[lo..hi][i])
    {
      assert s[lo..hi][i] == s[lo + i];
    }
  }

  lemma PartCharAt(s: string, lo: nat, hi: nat, j: nat)
    requires lo <= j < hi <= |s| && Part(s[lo..hi])
    ensures PartChar(s[j])
  {
    assert s[j] == s[lo..hi][j - lo];
  }

  lemma ShapeIsRegex(s: string)
    requires EmailShape(s)
    ensures EmailRegex(s)
  {
    var a :| 0 < a < |s| && s[a] == '@'
              && (forall j :: 0 <= j < |s| && j != a ==> s[j] != '@')
              && (exists k :: a + 1 < k < |s| - 1 && s[k] == '.');
    var k :| a + 1 < k < |s| - 1 && s[k] == '.';
    SliceIsPart(s, 0, a);
    SliceIsPart(s, a + 1, k);
    SliceIsPart(s, k + 1, |s|);
    assert s[..a] == s[0..a] && s[k + 1..] == s[k + 1..|s|];
  }

  /** Every character outside the '@' at `a` lies in one of the three parts. */
  lemma PartsCover(s: string, a: nat, k: nat)
    requires a < k < |s| && s[k] == '.' && Part(s[..a]) && Part(s[a + 1..k]) && Part(s[k + 1..])
    ensures forall j :: 0 <= j < |s| && j != a ==> PartChar(s[j])
  {
    assert s[..a] == s[0..a] && s[k + 1..] == s[k + 1..|s|];
    forall j | 0 <= j < |s| && j != a
      ensures PartChar(s[j])
    {
      if j < a {
        PartCharAt(s, 0, a, j);
      } else if j < k {
        PartCharAt(s, a + 1, k, j);
      } else if j > k {
        PartCharAt(s, k + 1, |s|, j);
      }
    }
  }

  lemma RegexIsShape(s: string)
    requires EmailRegex(s)
    ensures EmailShape(s)
  {
    var a, k :| 0 <= a < k < |s| && s[a] == '@' && s[k] == '.'
                && Part(s[..a]) && Part(s[a + 1..k]) && Part(s[k + 1..]);
    PartsCover(s, a, k);
    assert forall i :: 0 <= i < |s| ==> !IsSpace(s[i]);
    assert forall j :: 0 <= j < |s| && j != a ==> s[j] != '@';
    assert 0 < a && a + 1 < k < |s| - 1;
  }

  lemma EmailShapeIsRegex(s: string)
    ensures EmailShape(s) <==> EmailRegex(s)
  {
    if EmailShape(s) {
      ShapeIsRegex(s);
    }
    if EmailRegex(s) {
      RegexIsShape(s);
    }
  }

  /** The shape shared by the five checks: a value that trims to nothing is
      "required"; otherwise a value failing its rule gets the rule's message. */
  function Check(value: string, valid: bool, required: string, invalid: string): (e: Option<string>)
    ensures e.Some? <==> IsBlank(value) || !valid
    ensures e.Some? ==> e.value == if IsBlank(value) then required else invalid
  {
    if Trim(value) == [] then Some(required) else if !valid then Some(invalid) else None
  }

  /** The rule a non-blank value must meet. Lengths are JavaScript `.length` of the
      trimmed value, in UTF-16 code units. */
  predicate Rule(form: UserDetails, f: Field)
  {
    match f
    case FullName => Utf16Length(Trim(form.fullName)) >= 3
    case Address => Utf16Length(Trim(form.address)) >= 10
    case Pincode => DigitsOfLength(form.pincode, 6)
    case Mobile => DigitsOfLength(form.mobile, 10)
    case Email => EmailShape(form.email)
  }

  function RequiredMessage(f: Field): string
  {
    match f
    case FullName => "Full name is required"
    case Address => "Address is required"
    case Pincode => "Pincode is required"
    case Mobile => "Mobile number is required"
    case Email => "Email is required"
  }

  function InvalidMessage(f: Field): string
  {
    match f
    case FullName => "Full name must be at least 3 characters"
    case Address => "Please provide a complete address"
    case Pincode => "Pincode must be 6 digits"
    case Mobile => "Mobile number must be 10 digits"
    case Email => "Please enter a valid email address"
  }

  /** The message `validateForm` records for one field, if any: the "required"
      message for a blank value, the rule's message for a value breaking the rule. */
  function FieldError(form: UserDetails, f: Field): (e: Option<string>)
    ensures e.Some? <==> IsBlank(Get(form, f)) || !Rule(form, f)
    ensures e.Some? ==> e.value == if IsBlank(Get(form, f)) then RequiredMessage(f) else InvalidMessage(f)
  {
    Check(Get(form, f), Rule(form, f), RequiredMessage(f), InvalidMessage(f))
  }

  /** What each field's check accepts. */
  lemma FieldErrorMeaning(form: UserDetails, f: Field)
    ensures f == FullName ==> (FieldError(form, f).Some? <==> Utf16Length(Trim(form.fullName)) < 3)
    ensures f == Address ==> (FieldError(form, f).Some? <==> Utf16Length(Trim(form.address)) < 10)
    ensures f == Pincode ==> (FieldError(form, f).Some? <==> !DigitsOfLength(form.pincode, 6))
    ensures f == Mobile ==> (FieldError(form, f).Some? <==> !DigitsOfLength(form.mobile, 10))
    ensures f == Email ==> (FieldError(form, f).Some? <==> !EmailRegex(form.email))
  {
    match f
    case Pincode =>
      if DigitsOfLength(form.pincode, 6) { assert !IsSpace(form.pincode[0]); }
    case Mobile =>
      if DigitsOfLength(form.mobile, 10) { assert !IsSpace(form.mobile[0]); }
    case Email =>
      EmailShapeIsRegex(form.email);
      if EmailShape(form.email) { assert !IsSpace(form.email[0]); }
    case _ =>
  }

  /** A name of two characters, one outside the Basic Multilingual Plane and one
      inside it, is long enough: the check counts three code units. */
  lemma AstralNameIsLongEnough(form: UserDetails)
    requires form.fullName == "\U{20BB7}\U{7530}"
    ensures FieldError(form, FullName).None?
  {
    var t := form.fullName;
    assert t == ['\U{20BB7}', '\U{7530}'];
    assert Trim(t) == t by {
      assert TrimStart(t) == t;
      assert TrimEnd(t) == t;
    }
    assert Utf16Length(t) == 3;
  }

  /** The order in which `validateForm` checks the fields: position 0 to 4. */
  function Position(f: Field): (p: nat)
    ensures p < 5
  {
    match f
    case FullName => 0
    case Address => 1
    case Pincode => 2
    case Mobile => 3
    case Email => 4
  }

  function FieldAt(i: nat): (f: Field)
    requires i < 5
    ensures Position(f) == i
  {
    if i == 0 then FullName else if i == 1 then Address else if i == 2 then Pincode
    else if i == 3 then Mobile else Email
  }

  /** The loop of `validateForm`: visits the fields in order and records the
      message of each one whose check fails. */
  method CollectErrors(check: Field -> Option<string>) returns (errors: map<Field, string>)
    ensures forall f :: f in errors <==> check(f).Some?
    ensures forall f :: f in errors ==> errors[f] == check(f).value
  {
    errors := map[];
    for i := 0 to 5
      invariant forall f :: f in errors <==> Position(f) < i && check(f).Some?
      invariant forall f :: f in errors ==> errors[f] == check(f).value
    {
      var f := FieldAt(i);
      var e := check(f);
      if e.Some? {
        errors := errors[f := e.value];
      }
    }
  }

  /** `validateForm`: fills a fresh error map field by field and reports whether it
      stayed empty. Each field carries at most one message, and a field has one
      exactly when its check fails. */
  method ValidateForm(form: UserDetails) returns (errors: map<Field, string>, ok: bool)
    ensures forall f :: f in errors <==> FieldError(form, f).Some?
    ensures forall f :: f in errors ==> errors[f] == FieldError(form, f).value
    ensures ok <==> forall f :: FieldError(form, f).None?
    ensures ok <==> errors == map[]
  {
    errors := CollectErrors(f => FieldError(form, f));
    ok := |errors.Keys| == 0;
    assert ok ==> errors == map[];
  }

  /** `handleChange`: the named field takes the new value and nothing else in the form
      changes; an error shown for that field (a non-empty message) is replaced by
      the empty string, and every other error stays. */
  function HandleChange(form: UserDetails, errors: map<Field, string>, name: Field, value: string)
    : (r: (UserDetails, map<Field, string>))
    ensures Get(r.0, name) == value
    ensures forall g :: g != name ==> Get(r.0, g) == Get(form, g)
    ensures r.1.Keys == errors.Keys
    ensures name in errors ==> r.1[name] == ""
    ensures forall g :: g in errors && g != name ==> r.1[g] == errors[g]
  {
    var form' := Set(form, name, value);
    if name in errors && errors[name] != "" then (form', errors[name := ""]) else (form', errors)
  }

  /** The body `handleSubmit` posts to the orders endpoint. */
  datatype OrderRequest = OrderRequest(bookId: string, userDetails: UserDetails)

  /** `handleSubmit`: validates first and posts only a valid form, unchanged. */
  method HandleSubmit(bookId: string, form: UserDetails) returns (errors: map<Field, string>, posted: Option<OrderRequest>)
    ensures posted.Some? <==> errors == map[]
    ensures posted.Some? ==> posted.value == OrderRequest(bookId, form)
    ensures posted.Some? ==> UserDetailsJsOk(form) && UserDetailsPyOk(form)
  {
    var ok;
    errors, ok := ValidateForm(form);
    if !ok {
      return errors, None;
    }
    FieldErrorMeaning(form, FullName);
    FieldErrorMeaning(form, Address);
    FieldErrorMeaning(form, Pincode);
    FieldErrorMeaning(form, Mobile);
    FieldErrorMeaning(form, Email);
    SubmittedFormIsAccepted(form);
    posted := Some(OrderRequest(bookId, form));
  }

  /** A form that passes every check also meets the `required` fields of the
      Mongoose schema and the length constraints of the Pydantic `UserDetails`. */
  lemma SubmittedFormIsAccepted(form: UserDetails)
    requires Utf16Length(Trim(form.fullName)) >= 3 && Utf16Length(Trim(form.address)) >= 10
    requires DigitsOfLength(form.pincode, 6) && DigitsOfLength(form.mobile, 10)
    requires EmailRegex(form.email)
    ensures UserDetailsJsOk(form) && UserDetailsPyOk(form)
  {
    assert |Trim(form.fullName)| >= 2 && |Trim(form.address)| >= 5;
  }
}

=== FILE: common.dfy ===
/** Small wrapper types shared by every module of the bookstore model. */
module Common {

  datatype Option<+T> = None | Some(value: T)

  /** The outcome of a request handler: a value, or an HTTP error status with the
      message the handler reports (Express `res.status(..).json`, FastAPI
      `HTTPException`). */
  datatype Response<+T> = Ok(value: T) | Error(status: int, message: string)
}

=== FILE: gateway.dfy ===
/** What the two payment controllers share: the Razorpay order request and reply,
    the checkout callback and its signature check, the `Paid` transition of an
    order and the guarded stock decrement of a book. The Razorpay client and the
    HMAC-SHA256 primitive cannot be seen from here: both are passed in as
    functions. */
module Gateway {
  import opened Common
  import opened OrderModel
  import opened BookModel

  const DayMs: int := 86_400_000

  datatype Notes = Notes(orderId: string, bookTitle: string)

  /** The options given to `orders.create`. */
  datatype GatewayRequest = GatewayRequest(amount: real, currency: string, receipt: string, notes: Notes)

  datatype GatewayOrder = GatewayOrder(id: string, amount: real, currency: string)

  /** What the Razorpay client does with a request: create an order, or throw. */
  datatype GatewayReply = Created(order: GatewayOrder) | Unavailable(reason: string)

  /** The success payload of the create-payment-order endpoint. */
  datatype PaymentOrderData = PaymentOrderData(razorpayOrderId: string, amount: real, currency: string, keyId: string)

  /** The body of the verify endpoint, relayed by the client from Razorpay checkout. */
  datatype Callback = Callback(razorpayOrderId: string, razorpayPaymentId: string, razorpaySignature: string, orderId: string)

  /** The success payload of the verify endpoint. */
  datatype Receipt = Receipt(orderId: string, paymentId: string, deliveryDate: int, bookTitle: string, totalAmount: real)

  /** The text Razorpay signs: `razorpay_order_id + "|" + razorpay_payment_id`. */
  function SignedText(cb: Callback): (t: string)
    ensures |t| == |cb.razorpayOrderId| + 1 + |cb.razorpayPaymentId|
    ensures t[|cb.razorpayOrderId|] == '|'
    ensures t[..|cb.razorpayOrderId|] == cb.razorpayOrderId && t[|cb.razorpayOrderId| + 1..] == cb.razorpayPaymentId
  {
    cb.razorpayOrderId + "|" + cb.razorpayPaymentId
  }

  /** As long as gateway order ids contain no '|', the signed text determines both ids. */
  lemma SignedTextDeterminesIds(a: Callback, b: Callback)
    requires '|' !in a.razorpayOrderId && '|' !in b.razorpayOrderId
    requires SignedText(a) == SignedText(b)
    ensures a.razorpayOrderId == b.razorpayOrderId && a.razorpayPaymentId == b.razorpayPaymentId
  {
    var la, lb := |a.razorpayOrderId|, |b.razorpayOrderId|;
    if la != lb {
      assert false;
    }
  }

  /** The callback is authentic when its signature equals the hex HMAC of the signed
      text under the shared secret. */
  predicate SignatureMatches(hmac: (string, string) -> string, secret: string, cb: Callback)
  {
    cb.razorpaySignature == hmac(secret, SignedText(cb))
  }

  /** `now` plus a number of whole days. */
  function DeliveryDate(now: int, days: int): (d: int)
    ensures 5 <= days <= 7 ==> now + 5 * DayMs <= d <= now + 7 * DayMs
  {
    now + days * DayMs
  }

  /** The order after a verified payment: Paid, with the payment id, the signature
      and the delivery date recorded; nothing else but `updatedAt` changes. */
  function PaidOrder(o: Order, cb: Callback, deliveryDate: int, now: int): (p: Order)
    ensures OrderInvariant(o) ==> OrderInvariant(p)
    ensures p.paymentStatus == Paid && p.paymentId == Some(cb.razorpayPaymentId)
    ensures p.paymentSignature == Some(cb.razorpaySignature) && p.deliveryDate == Some(deliveryDate)
    ensures p.(paymentStatus := o.paymentStatus, paymentId := o.paymentId, paymentSignature := o.paymentSignature,
               deliveryDate := o.deliveryDate, updatedAt := o.updatedAt) == o
  {
    o.(paymentStatus := Paid, paymentId := Some(cb.razorpayPaymentId),
       paymentSignature := Some(cb.razorpaySignature), deliveryDate := Some(deliveryDate), updatedAt := now)
  }

  /** The order after a reported failure: Failed, whatever it was before. */
  function FailedOrder(o: Order, now: int): (f: Order)
    ensures OrderInvariant(o) ==> OrderInvariant(f)
    ensures f.paymentStatus == Failed
    ensures f.(paymentStatus := o.paymentStatus, updatedAt := o.updatedAt) == o
  {
    o.(paymentStatus := Failed, updatedAt := now)
  }

  /** The book after a sale: one copy fewer when stock is positive, untouched
      otherwise. Stock is never taken below zero by this step. */
  function AfterSale(b: Book, now: int): (r: Book)
    ensures r.stock == (if b.stock > 0 then b.stock - 1 else b.stock)
    ensures r.stock >= 0 <==> b.stock >= 0
    ensures r.stock < b.stock <==> b.stock > 0
    ensures r.(stock := b.stock, updatedAt := b.updatedAt) == b
  {
    if b.stock > 0 then b.(stock := b.stock - 1, updatedAt := now) else b
  }

  /** Selling n times in a row removes min(n, stock) copies: there is no per-order
      guard, only the zero floor. */
  function AfterSales(b: Book, n: nat, now: int): (r: Book)
    decreases n
  {
    if n == 0 then b else AfterSales(AfterSale(b, now), n - 1, now)
  }

  lemma {:induction false} RepeatedSales(b: Book, n: nat, now: int)
    requires b.stock >= 0
    ensures AfterSales(b, n, now).stock == if n <= b.stock then b.stock - n else 0
    decreases n
  {
    if n > 0 {
      RepeatedSales(AfterSale(b, now), n - 1, now);
    }
  }
}

=== FILE: helpers.dfy ===
/** `serialize_doc` of server/utils/helpers.py: turning a MongoDB document into
    something JSON can encode by replacing ObjectIds with their hexadecimal string.
    Only ObjectIds that are field values of a dictionary (at any depth of nested
    dictionaries) are converted: the items of a list-valued field are converted
    only when they are themselves dictionaries. Nothing in the server calls
    `serialize_doc`: the FastAPI controllers return the raw documents. */
module Helpers {

  /** A BSON-like document tree. A dictionary is its list of (key, value) entries
      in insertion order. */
  datatype Doc =
    | Null
    | Oid(hex: string)
    | Str(s: string)
    | Num(n: real)
    | Bool(b: bool)
    | List(items: seq<Doc>)
    | Dict(fields: seq<(string, Doc)>)

  function Keys(fs: seq<(string, Doc)>): (ks: seq<string>)
    ensures |ks| == |fs| && forall i :: 0 <= i < |fs| ==> ks[i] == fs[i].0
  {
    seq(|fs|, i requires 0 <= i < |fs| => fs[i].0)
  }

  /** `serialize_doc(doc)`. */
  function Serialize(d: Doc): (r: Doc)
    ensures d.Null? ==> r.Null?
    ensures d.List? ==> r.List? && |r.items| == |d.items|
    ensures d.List? ==> forall i :: 0 <= i < |d.items| ==> r.items[i] == Serialize(d.items[i])
    ensures d.Dict? ==> r.Dict? && Keys(r.fields) == Keys(d.fields)
    ensures d.Dict? ==> forall i :: 0 <= i < |d.fields| ==> r.fields[i].1 == SerializeValue(d.fields[i].1)
    ensures !d.List? && !d.Dict? ==> r == d
    decreases d, 0
  {
    match d
    case List(items) => List(seq(|items|, i requires 0 <= i < |items| => Serialize(items[i])))
    case Dict(fs) => Dict(seq(|fs|, i requires 0 <= i < |fs| => (fs[i].0, SerializeValue(fs[i].1))))
    case _ => d
  }

  /** The body of the loop over a dictionary's entries: what one value becomes. */
  function SerializeValue(v: Doc): (r: Doc)
    ensures v.Oid? ==> r == Str(v.hex)
    ensures v.List? ==> r.List? && |r.items| == |v.items|
                        && (forall i :: 0 <= i < |v.items| && !v.items[i].Dict? ==> r.items[i] == v.items[i])
                        && (forall i :: 0 <= i < |v.items| && v.items[i].Dict? ==> r.items[i] == Serialize(v.items[i]))
    ensures v.Dict? ==> r == Serialize(v)
    ensures !v.Oid? && !v.List? && !v.Dict? ==> r == v
    decreases v, 1
  {
    match v
    case Oid(h) => Str(h)
    case Dict(_) => Serialize(v)
    case List(items) =>
      List(seq(|items|, i requires 0 <= i < |items| => if items[i].Dict? then Serialize(items[i]) else items[i]))
    case _ => v
  }

  /** No ObjectId is the value of a field, in this dictionary, in any dictionary
      nested as a field value, or in any dictionary that is an item of a
      list-valued field. */
  ghost predicate FieldsClean(d: Doc)
    decreases d
  {
    d.Dict? ==>
      forall i :: 0 <= i < |d.fields| ==>
        && !d.fields[i].1.Oid?
        && (d.fields[i].1.Dict? ==> FieldsClean(d.fields[i].1))
        && (d.fields[i].1.List? ==>
              forall j :: 0 <= j < |d.fields[i].1.items| && d.fields[i].1.items[j].Dict? ==>
                FieldsClean(d.fields[i].1.items[j]))
  }

  /** Serializing a dictionary leaves no ObjectId as a field value at any depth of
      nested dictionaries, whether nested directly or as items of a list field. */
  lemma {:induction false} SerializedFieldsAreClean(d: Doc)
    ensures FieldsClean(Serialize(d))
    decreases d
  {
    if d.Dict? {
      var r := Serialize(d);
      forall i | 0 <= i < |r.fields|
        ensures !r.fields[i].1.Oid?
        ensures r.fields[i].1.Dict? ==> FieldsClean(r.fields[i].1)
        ensures r.fields[i].1.List? ==>
                  forall j :: 0 <= j < |r.fields[i].1.items| && r.fields[i].1.items[j].Dict? ==>
                    FieldsClean(r.fields[i].1.items[j])
      {
        var v := d.fields[i].1;
        assert d.fields[i] in d.fields;
        assert r.fields[i].1 == SerializeValue(v);
        if v.Dict? {
          SerializedFieldsAreClean(v);
        }
        if v.List? {
          var w := r.fields[i].1;
          forall j | 0 <= j < |w.items| && w.items[j].Dict?
            ensures FieldsClean(w.items[j])
          {
            assert v.items[j] in v.items;
            if v.items[j].Dict? {
              SerializedFieldsAreClean(v.items[j]);
            }
          }
        }
      }
    }
  }

  /** The quirk: an ObjectId inside a list-valued field is kept as an ObjectId. */
  lemma ListFieldObjectIdKept(h: string)
    ensures Serialize(Dict([("ids", List([Oid(h)]))])) == Dict([("ids", List([Oid(h)]))])
  {
    var d := Dict([("ids", List([Oid(h)]))]);
    assert SerializeValue(List([Oid(h)])) == List([Oid(h)]);
    assert Serialize(d).fields == [("ids", List([Oid(h)]))];
  }

  /** The same holds of an ObjectId item of a top-level list. */
  lemma TopLevelListObjectIdKept(h: string)
    ensures Serialize(List([Oid(h)])) == List([Oid(h)])
  {
    assert Serialize(List([Oid(h)])).items == [Oid(h)];
  }

  /** Serializing twice is serializing once. */
  lemma {:induction false} SerializeIdempotent(d: Doc)
    ensures Serialize(Serialize(d)) == Serialize(d)
    decreases d, 0
  {
    match d
    case List(items) =>
      var r := Serialize(d);
      forall i | 0 <= i < |items|
        ensures Serialize(r.items[i]) == r.items[i]
      {
        SerializeIdempotent(items[i]);
      }
      assert Serialize(r).items == r.items;
    case Dict(fs) =>
      var r := Serialize(d);
      forall i | 0 <= i < |fs|
        ensures SerializeValue(r.fields[i].1) == r.fields[i].1
      {
        assert fs[i] in fs;
        SerializeValueIdempotent(fs[i].1);
      }
      assert Serialize(r).fields == r.fields;
    case _ =>
  }

  lemma {:induction false} SerializeValueIdempotent(v: Doc)
    ensures SerializeValue(SerializeValue(v)) == SerializeValue(v)
    decreases v, 1
  {
    match v
    case Dict(_) =>
      SerializeIdempotent(v);
    case List(items) =>
      var r := SerializeValue(v);
      forall i | 0 <= i < |items|
        ensures (if r.items[i].Dict? then Serialize(r.items[i]) else r.items[i]) == r.items[i]
      {
        if items[i].Dict? {
          SerializeIdempotent(items[i]);
        }
      }
      assert SerializeValue(r).items == r.items;
    case _ =>
  }

  /** `serialize_doc` as written: recursion on lists and nested dictionaries, and a
      loop that fills a fresh dictionary entry by entry. */
  method SerializeDoc(d: Doc) returns (r: Doc)
    ensures r == Serialize(d)
    decreases d
  {
    match d {
      case Null =>
        r := Null;
      case List(items) =>
        var out: seq<Doc> := [];
        for i := 0 to |items|
          invariant |out| == i && forall j :: 0 <= j < i ==> out[j] == Serialize(items[j])
        {
          var x := SerializeDoc(items[i]);
          out := out + [x];
        }
        r := List(out);
      case Dict(fs) =>
        var serialized: seq<(string, Doc)> := [];
        for i := 0 to |fs|
          invariant |serialized| == i
          invariant forall j :: 0 <= j < i ==> serialized[j] == (fs[j].0, SerializeValue(fs[j].1))
        {
          var (key, value) := fs[i];
          assert fs[i] in fs;
          var out: Doc;
          match value {
            case Oid(h) =>
              out := Str(h);
            case Dict(_) =>
              out := SerializeDoc(value);
            case List(items) =>
              var kept: seq<Doc> := [];
              for j := 0 to |items|
                invariant |kept| == j
                invariant forall m :: 0 <= m < j ==> kept[m] == (if items[m].Dict? then Serialize(items[m]) else items[m])
              {
                var item := items[j];
                if item.Dict? {
                  item := SerializeDoc(item);
                }
                kept := kept + [item];
              }
              assert kept == SerializeValue(value).items;
              out := List(kept);
            case _ =>
              out := value;
          }
          assert out == SerializeValue(value);
          serialized := serialized + [(key, out)];
        }
        r := Dict(serialized);
      case _ =>
        r := d;
    }
  }
}

=== FILE: order_model.dfy ===
/** The order record as both backends declare it: the Pydantic models of
    server/models/order.py and the Mongoose schema of server/models/Order.js. */
module OrderModel {
  import opened Common
  import opened Text

  /** `PaymentStatus` (Python enum) and the `enum` of `paymentStatus` (Mongoose). */
  datatype PaymentStatus = Pending | Paid | Failed

  function StatusName(s: PaymentStatus): string
  {
    match s
    case Pending => "Pending"
    case Paid => "Paid"
    case Failed => "Failed"
  }

  /** Reading a stored status string: only the three enum values are accepted. */
  function ParseStatus(name: string): (r: Option<PaymentStatus>)
    ensures r.Some? <==> name == "Pending" || name == "Paid" || name == "Failed"
    ensures r.Some? ==> StatusName(r.value) == name
  {
    if name == "Pending" then Some(Pending)
    else if name == "Paid" then Some(Paid)
    else if name == "Failed" then Some(Failed)
    else None
  }

  lemma StatusRoundTrip(s: PaymentStatus)
    ensures ParseStatus(StatusName(s)) == Some(s)
  {
  }

  /** The buyer details captured at checkout. */
  datatype UserDetails = UserDetails(fullName: string, address: string, pincode: string, mobile: string, email: string)

  /** Pydantic `UserDetails`: pincode of length exactly 6 and mobile of length
      exactly 10. Only lengths are constrained; the characters are not. */
  predicate UserDetailsPyOk(u: UserDetails)
  {
    |u.pincode| == 6 && |u.mobile| == 10
  }

  /** Pydantic validation of a `UserDetails` body (a failure is FastAPI's 422). */
  function ValidateUserDetailsPy(u: UserDetails): (r: Response<UserDetails>)
    ensures r.Ok? <==> |u.pincode| == 6 && |u.mobile| == 10
    ensures r.Ok? ==> r.value == u
    ensures r.Error? ==> r.status == 422
  {
    if UserDetailsPyOk(u) then Ok(u) else Error(422, "String should have the required length")
  }

  /** The length check lets letters through: "abcdef" is an acceptable pincode. */
  lemma PincodeCheckIsLengthOnly(u: UserDetails)
    requires u.pincode == "abcdef" && |u.mobile| == 10
    ensures ValidateUserDetailsPy(u).Ok?
    ensures !IsDigit(u.pincode[0])
  {
  }

  /** Mongoose `required: true` on the five string fields: a missing or empty
      string is rejected. */
  predicate UserDetailsJsOk(u: UserDetails)
  {
    u.fullName != "" && u.address != "" && u.pincode != "" && u.mobile != "" && u.email != ""
  }

  /** `PyObjectId.validate`: accepts exactly the valid ObjectId strings. */
  function ValidateObjectId(v: string): (r: Response<string>)
    ensures r.Ok? <==> |v| == 24 && forall i :: 0 <= i < |v| ==> IsHexDigit(v[i])
    ensures r.Ok? ==> r.value == v
  {
    if IsValidObjectId(v) then Ok(v) else Error(422, "Invalid ObjectId")
  }

  const DeliveryCharges: real := 50.0

  /** One order document. `id` is MongoDB's `_id`; `orderId` is the human-readable
      identifier. Amounts are exact numbers; times are milliseconds. */
  datatype Order = Order(
    id: string,
    bookId: string,
    userDetails: UserDetails,
    paymentId: Option<string>,
    orderId: string,
    razorpayOrderId: Option<string>,
    amount: real,
    deliveryCharges: real,
    totalAmount: real,
    paymentStatus: PaymentStatus,
    deliveryDate: Option<int>,
    paymentSignature: Option<string>,
    createdAt: int,
    updatedAt: int)

  /** What every stored order satisfies: the fixed delivery charge, total = amount +
      charge, a pending order carries no payment data and a paid one carries all of it. */
  ghost predicate OrderInvariant(o: Order)
  {
    && o.deliveryCharges == DeliveryCharges
    && o.totalAmount == o.amount + o.deliveryCharges
    && (o.paymentStatus == Pending ==> o.paymentId.None? && o.paymentSignature.None? && o.deliveryDate.None?)
    && (o.paymentStatus == Paid ==> o.paymentId.Some? && o.paymentSignature.Some? && o.deliveryDate.Some?)
  }

  /** A freshly created order: status defaults to Pending, the delivery charge to 50,
      and the payment fields to null. */
  function NewOrder(id: string, bookId: string, details: UserDetails, orderId: string, price: real, now: int): (o: Order)
    ensures OrderInvariant(o)
    ensures o.paymentStatus == Pending && o.amount == price && o.totalAmount == price + 50.0
    ensures o.razorpayOrderId.None? && o.paymentId.None? && o.paymentSignature.None? && o.deliveryDate.None?
    ensures o.id == id && o.bookId == bookId && o.userDetails == details && o.orderId == orderId
    ensures o.createdAt == now && o.updatedAt == now
  {
    Order(id, bookId, details, None, orderId, None, price, DeliveryCharges, price + DeliveryCharges,
          Pending, None, None, now, now)
  }
}

=== FILE: orders_js.dfy ===
/** The Express order controller (server/controllers/orderController.js): placing
    an order for a book, fetching one by `_id`, and listing all of them. Every
    handler turns a thrown error into a 500: a malformed ObjectId (a CastError), a
    failed `required` check or a duplicate `orderId` (the unique index). */
module OrdersJs {
  import opened Common
  import opened Text
  import opened OrderModel
  import opened BookModel
  import opened Store

  /** The human-readable order id: "ORD", then a timestamp, then a suffix, both in
      decimal. */
  function OrderId(stamp: nat, suffix: nat): (id: string)
    ensures |id| == 3 + |NatToString(stamp)| + |NatToString(suffix)|
    ensures id[..3] == "ORD"
    ensures AllDigits(id[3..])
    ensures id[3..3 + |NatToString(stamp)|] == NatToString(stamp)
    ensures id[3 + |NatToString(stamp)|..] == NatToString(suffix)
  {
    "ORD" + NatToString(stamp) + NatToString(suffix)
  }

  /** `Math.floor(Math.random() * 1000)` for a draw `r` in [0, 1). */
  function Suffix(r: real): (s: nat)
    requires 0.0 <= r < 1.0
    ensures s <= 999
    ensures s as real <= r * 1000.0 < s as real + 1.0
  {
    (r * 1000.0).Floor
  }

  /** Timestamps of the same width (every `Date.now()` from 2001 to 2286 has 13
      digits) and the suffix are both recovered from the id. */
  lemma {:induction false} OrderIdInjective(t1: nat, s1: nat, t2: nat, s2: nat)
    requires |NatToString(t1)| == |NatToString(t2)|
    requires OrderId(t1, s1) == OrderId(t2, s2)
    ensures t1 == t2 && s1 == s2
  {
    var id := OrderId(t1, s1);
    var w := |NatToString(t1)|;
    assert NatToString(t1) == id[3..3 + w] == NatToString(t2);
    assert NatToString(s1) == id[3 + w..] == NatToString(s2);
    NatToStringInjective(t1, t2);
    NatToStringInjective(s1, s2);
  }

  /** With timestamps of different widths the suffix is not delimited: the millisecond
      1 with suffix 23 and the millisecond 12 with suffix 3 give the same id. */
  lemma OrderIdAmbiguousAcrossWidths()
    ensures OrderId(1, 23) == OrderId(12, 3) == "ORD123"
  {
    assert NatToString(23) == NatToString(2) + [DigitChar(3)];
    assert NatToString(12) == NatToString(1) + [DigitChar(2)];
  }

  /** `createOrder`. `newId` is the `_id` MongoDB assigns, `now` the value of
      `Date.now()` and `random` the value of `Math.random()`. Stock is not touched. */
  method CreateOrder(db: Database, bookId: string, details: UserDetails, newId: string, now: nat, random: real)
    returns (res: Response<Order>)
    requires db.Valid() && 0.0 <= random < 1.0
    requires forall k :: k in db.orders ==> db.orders[k].id != newId
    modifies db
    ensures old(db.OrderIdsDistinct()) ==> db.OrderIdsDistinct()
    ensures db.Valid() && db.books == old(db.books)
    ensures !IsValidObjectId(bookId) ==>
              res == Error(500, "Error creating order") && db.orders == old(db.orders)
    ensures IsValidObjectId(bookId) && bookId !in old(db.books) ==>
              res == Error(404, "Book not found") && db.orders == old(db.orders)
    ensures IsValidObjectId(bookId) && bookId in old(db.books) && old(db.books)[bookId].stock < 1 ==>
              res == Error(400, "Book out of stock") && db.orders == old(db.orders)
    ensures IsValidObjectId(bookId) && bookId in old(db.books) && old(db.books)[bookId].stock >= 1 ==>
              var id := OrderId(now, Suffix(random));
              var o := NewOrder(newId, bookId, details, id, old(db.books)[bookId].price, now);
              if UserDetailsJsOk(details) && id !in old(db.orders) then
                res == Ok(o) && db.orders == old(db.orders)[id := o]
              else
                res == Error(500, "Error creating order") && db.orders == old(db.orders)
  {
    if !IsValidObjectId(bookId) {
      return Error(500, "Error creating order");
    }
    if bookId !in db.books {
      return Error(404, "Book not found");
    }
    var book := db.books[bookId];
    if book.stock < 1 {
      return Error(400, "Book out of stock");
    }
    var orderId := OrderId(now, Suffix(random));
    var order := NewOrder(newId, bookId, details, orderId, book.price, now);
    if !UserDetailsJsOk(details) || orderId in db.orders {
      return Error(500, "Error creating order");
    }
    db.orders := db.orders[orderId := order];
    res := Ok(order);
  }

  /** `getOrderById`: the order whose `_id` is `id`, joined to its book (null when
      the book is gone). */
  method GetOrderById(db: Database, id: string) returns (res: Response<Populated>)
    requires db.Valid()
    ensures !IsValidObjectId(id) ==> res == Error(500, "Error fetching order")
    ensures IsValidObjectId(id) ==>
              (res.Error? <==> forall k :: k in db.orders ==> db.orders[k].id != id)
    ensures IsValidObjectId(id) && res.Error? ==> res == Error(404, "Order not found")
    ensures res.Ok? ==> res.value.order.id == id && res.value.order.orderId in db.orders
                        && res.value == db.Populate(db.orders[res.value.order.orderId])
  {
    if !IsValidObjectId(id) {
      return Error(500, "Error fetching order");
    }
    var key := db.FindOrderById(id);
    if key.None? {
      return Error(404, "Order not found");
    }
    res := Ok(db.Populate(db.orders[key.value]));
  }

  /** `getAllOrders`: every order exactly once, joined to its book, newest first. */
  method GetAllOrders(db: Database) returns (res: seq<Populated>)
    requires db.Valid()
    ensures forall i :: 0 <= i < |res| ==>
              res[i].order.orderId in db.orders && res[i] == db.Populate(db.orders[res[i].order.orderId])
    ensures forall k :: k in db.orders ==> exists i :: 0 <= i < |res| && res[i].order.orderId == k
    ensures forall i, j :: 0 <= i < j < |res| ==>
              res[i].order.createdAt >= res[j].order.createdAt && res[i].order.orderId != res[j].order.orderId
  {
    var created := map k | k in db.orders :: db.orders[k].createdAt;
    var keys := SortNewestFirst(created);
    res := db.PopulateAll(keys);
    assert forall j :: 0 <= j < |keys| ==> res[j].order.orderId == keys[j];
    forall k | k in db.orders
      ensures exists i :: 0 <= i < |res| && res[i].order.orderId == k
    {
      assert k in created;
      var j :| 0 <= j < |keys| && keys[j] == k;
      assert res[j].order.orderId == k;
    }
  }
}

=== FILE: orders_py.dfy ===
/** The FastAPI order controller (server/controllers/order_controller.py). The
    aggregation pipelines join each order to its book with `$lookup` and then
    `$unwind`, which drops an order whose book no longer exists: such an order is
    "not found" and is left out of the listing. */
module OrdersPy {
  import opened Common
  import opened Text
  import opened OrderModel
  import opened BookModel
  import opened Store
  import OrdersJs

  /** `f"ORD{int(time.time())}{random.randint(100, 999)}"`: the timestamp in whole
      seconds and a three-digit suffix. */
  function OrderId(nowMs: nat, suffix: nat): (id: string)
    requires 100 <= suffix <= 999
    ensures |id| == 3 + |NatToString(nowMs / 1000)| + 3
    ensures id[..3] == "ORD" && AllDigits(id[3..])
    ensures id[3..|id| - 3] == NatToString(nowMs / 1000)
    ensures id[|id| - 3..] == NatToString(suffix)
  {
    DigitCount(suffix);
    OrdersJs.OrderId(nowMs / 1000, suffix)
  }

  /** Because the suffix always has three digits, an id determines the second and
      the suffix it was made from, whatever the width of the timestamp. Two orders
      placed in different seconds never share an id. */
  lemma {:induction false} OrderIdInjective(t1: nat, s1: nat, t2: nat, s2: nat)
    requires 100 <= s1 <= 999 && 100 <= s2 <= 999
    requires OrderId(t1, s1) == OrderId(t2, s2)
    ensures t1 / 1000 == t2 / 1000 && s1 == s2
  {
    var id := OrderId(t1, s1);
    assert |NatToString(t1 / 1000)| == |id| - 6 == |NatToString(t2 / 1000)|;
    OrdersJs.OrderIdInjective(t1 / 1000, s1, t2 / 1000, s2);
  }

  /** `create_order` after FastAPI has validated the body as an `OrderCreate` (so the
      user details meet the Pydantic constraints). `newId` is the `_id` MongoDB
      assigns, `now` the clock in milliseconds and `suffix` the value of
      `random.randint(100, 999)`. An absent stock reads as 0; stock is not touched. */
  method CreateOrder(db: Database, bookId: string, details: UserDetails, newId: string, now: nat, suffix: nat)
    returns (res: Response<Order>)
    requires db.Valid() && UserDetailsPyOk(details) && 100 <= suffix <= 999
    requires forall k :: k in db.orders ==> db.orders[k].id != newId
    modifies db
    ensures old(db.OrderIdsDistinct()) ==> db.OrderIdsDistinct()
    ensures db.Valid() && db.books == old(db.books)
    ensures !IsValidObjectId(bookId) ==>
              res == Error(400, "Invalid book ID") && db.orders == old(db.orders)
    ensures IsValidObjectId(bookId) && bookId !in old(db.books) ==>
              res == Error(404, "Book not found") && db.orders == old(db.orders)
    ensures IsValidObjectId(bookId) && bookId in old(db.books) && old(db.books)[bookId].stock < 1 ==>
              res == Error(400, "Book out of stock") && db.orders == old(db.orders)
    ensures IsValidObjectId(bookId) && bookId in old(db.books) && old(db.books)[bookId].stock >= 1 ==>
              var id := OrderId(now, suffix);
              var o := NewOrder(newId, bookId, details, id, old(db.books)[bookId].price, now);
              if id !in old(db.orders) then
                res == Ok(o) && db.orders == old(db.orders)[id := o]
              else
                res.Error? && res.status == 500 && db.orders == old(db.orders)
  {
    if !IsValidObjectId(bookId) {
      return Error(400, "Invalid book ID");
    }
    if bookId !in db.books {
      return Error(404, "Book not found");
    }
    var book := db.books[bookId];
    if book.stock < 1 {
      return Error(400, "Book out of stock");
    }
    var orderId := OrderId(now, suffix);
    if orderId in db.orders {
      return Error(500, "E11000 duplicate key error");
    }
    var order := NewOrder(newId, bookId, details, orderId, book.price, now);
    db.orders := db.orders[orderId := order];
    res := Ok(db.orders[orderId]);
  }

  /** `get_order_by_id`: 400 for a malformed id; 404 unless an order with that `_id`
      exists and its book does too. */
  method GetOrderById(db: Database, id: string) returns (res: Response<Populated>)
    requires db.Valid()
    ensures !IsValidObjectId(id) ==> res == Error(400, "Invalid order ID")
    ensures IsValidObjectId(id) ==>
              (res.Error? <==> forall k :: k in db.orders && db.orders[k].id == id ==> db.orders[k].bookId !in db.books)
    ensures IsValidObjectId(id) && res.Error? ==> res == Error(404, "Order not found")
    ensures res.Ok? ==> res.value.order.id == id && res.value.order.orderId in db.orders
                        && res.value == db.Populate(db.orders[res.value.order.orderId])
                        && res.value.book.Some?
  {
    if !IsValidObjectId(id) {
      return Error(400, "Invalid order ID");
    }
    var todo := db.orders.Keys;
    while todo != {}
      invariant todo <= db.orders.Keys
      invariant forall k :: k in db.orders && k !in todo && db.orders[k].id == id ==> db.orders[k].bookId !in db.books
      decreases |todo|
    {
      var k :| k in todo;
      if db.orders[k].id == id && db.orders[k].bookId in db.books {
        return Ok(db.Populate(db.orders[k]));
      }
      todo := todo - {k};
    }
    res := Error(404, "Order not found");
  }

  /** `get_order_by_order_id`: 404 unless the order exists and its book does too. */
  method GetOrderByOrderId(db: Database, orderId: string) returns (res: Response<Populated>)
    requires db.Valid()
    ensures res.Error? <==> orderId !in db.orders || db.orders[orderId].bookId !in db.books
    ensures res.Error? ==> res == Error(404, "Order not found")
    ensures res.Ok? ==> res.value == db.Populate(db.orders[orderId]) && res.value.book.Some?
                        && res.value.order.orderId == orderId
  {
    if orderId !in db.orders || db.orders[orderId].bookId !in db.books {
      return Error(404, "Order not found");
    }
    res := Ok(db.Populate(db.orders[orderId]));
  }

  const ListLimit: nat := 100

  /** `get_all_orders`: orders whose book exists, newest first, at most 100. An
      order that is left out although its book exists is no newer than every order
      listed, and the list is full. */
  method GetAllOrders(db: Database) returns (res: seq<Populated>)
    requires db.Valid()
    ensures |res| <= ListLimit
    ensures forall i :: 0 <= i < |res| ==>
              && res[i].order.orderId in db.orders
              && res[i] == db.Populate(db.orders[res[i].order.orderId])
              && res[i].book.Some?
    ensures forall i, j :: 0 <= i < j < |res| ==>
              res[i].order.createdAt >= res[j].order.createdAt && res[i].order.orderId != res[j].order.orderId
    ensures forall k :: (k in db.orders && db.orders[k].bookId in db.books
                         && forall i :: 0 <= i < |res| ==> res[i].order.orderId != k) ==>
                && |res| == ListLimit
                && forall i :: 0 <= i < |res| ==> res[i].order.createdAt >= db.orders[k].createdAt
  {
    var created := map k | k in db.orders && db.orders[k].bookId in db.books :: db.orders[k].createdAt;
    var keys := TakeNewest(created, ListLimit);
    res := db.PopulateAll(keys);
    assert forall j :: 0 <= j < |keys| ==> res[j].order.orderId == keys[j];
    forall k | k in db.orders && db.orders[k].bookId in db.books
                 && (forall i :: 0 <= i < |res| ==> res[i].order.orderId != k)
      ensures |res| == ListLimit
      ensures forall i :: 0 <= i < |res| ==> res[i].order.createdAt >= db.orders[k].createdAt
    {
      assert k in created;
    }
  }
}

=== FILE: payment_js.dfy ===
/** The Express payment controller (server/controllers/paymentController.js):
    creating the Razorpay order, verifying the checkout callback, and recording a
    failure, as transitions of the shared database. Each handler's `try`/`catch`
    turns a thrown error into a 500 with its own message. */
module PaymentJs {
  import opened Common
  import opened OrderModel
  import opened BookModel
  import opened Store
  import opened Gateway

  /** The amount sent to Razorpay: the total in paise, `totalAmount * 100`, with no
      rounding. */
  function AmountInPaise(total: real): (p: real)
    ensures p / 100.0 == total
    ensures total >= 0.0 ==> p >= total
  {
    total * 100.0
  }

  /** `Math.floor(Math.random() * 3) + 5` for a draw `r` in [0, 1). */
  function DeliveryDays(r: real): (d: int)
    requires 0.0 <= r < 1.0
    ensures 5 <= d <= 7
    ensures d == 5 <==> r < 1.0 / 3.0
    ensures d == 7 <==> r >= 2.0 / 3.0
  {
    (r * 3.0).Floor + 5
  }

  /** Every delivery offset from five to seven days is drawn for some `r`. */
  lemma DeliveryDaysReachable(d: int)
    requires 5 <= d <= 7
    ensures exists r: real :: 0.0 <= r < 1.0 && DeliveryDays(r) == d
  {
    var r := (d - 5) as real / 3.0;
    assert DeliveryDays(r) == d;
  }

  /** Mongoose `save` with `timestamps: true`: when no path was modified nothing is
      written and `updatedAt` keeps its value; otherwise `updatedAt` becomes `now`. */
  function Save(before: Order, edited: Order, now: int): (r: Order)
    requires edited.updatedAt == before.updatedAt
    ensures r.(updatedAt := before.updatedAt) == edited
    ensures r.updatedAt == before.updatedAt || (r.updatedAt == now && edited != before)
    ensures edited != before ==> r.updatedAt == now
    ensures OrderInvariant(edited) ==> OrderInvariant(r)
  {
    if edited == before then before else edited.(updatedAt := now)
  }

  /** `createPaymentOrder`. `sent` is the request handed to the Razorpay client, if
      one was: none for an unknown order, and none when the order's book is gone
      (reading `order.bookId.title` of an unpopulated order throws). The final
      `order.save()` validates the loaded user details: an order written by the
      other backend with an empty name or address fails `required` and the
      Razorpay order is left unrecorded. */
  method CreatePaymentOrder(db: Database, orderId: string, keyId: string,
                            gateway: GatewayRequest -> GatewayReply, now: int)
    returns (res: Response<PaymentOrderData>, sent: Option<GatewayRequest>)
    requires db.Valid()
    modifies db
    ensures db.Valid() && db.books == old(db.books)
    ensures orderId !in old(db.orders) ==>
              res == Error(404, "Order not found") && sent.None? && db.orders == old(db.orders)
    ensures orderId in old(db.orders) && old(db.orders)[orderId].bookId !in old(db.books) ==>
              res == Error(500, "Error creating payment order") && sent.None? && db.orders == old(db.orders)
    ensures orderId in old(db.orders) && old(db.orders)[orderId].bookId in old(db.books) ==>
              var o := old(db.orders)[orderId];
              && sent == Some(GatewayRequest(AmountInPaise(o.totalAmount), "INR", orderId,
                                             Notes(orderId, old(db.books)[o.bookId].title)))
              && (gateway(sent.value).Unavailable? || !UserDetailsJsOk(o.userDetails) ==>
                    res == Error(500, "Error creating payment order") && db.orders == old(db.orders))
              && (gateway(sent.value).Created? && UserDetailsJsOk(o.userDetails) ==>
                    var g := gateway(sent.value).order;
                    && res == Ok(PaymentOrderData(g.id, g.amount, g.currency, keyId))
                    && db.orders == old(db.orders)[orderId := Save(o, o.(razorpayOrderId := Some(g.id)), now)])
  {
    if orderId !in db.orders {
      return Error(404, "Order not found"), None;
    }
    var order := db.orders[orderId];
    if order.bookId !in db.books {
      return Error(500, "Error creating payment order"), None;
    }
    var book := db.books[order.bookId];
    var options := GatewayRequest(AmountInPaise(order.totalAmount), "INR", order.orderId,
                                  Notes(order.orderId, book.title));
    sent := Some(options);
    var reply := gateway(options);
    if reply.Unavailable? || !UserDetailsJsOk(order.userDetails) {
      return Error(500, "Error creating payment order"), sent;
    }
    var g := reply.order;
    db.orders := db.orders[orderId := Save(order, order.(razorpayOrderId := Some(g.id)), now)];
    res := Ok(PaymentOrderData(g.id, g.amount, g.currency, keyId));
  }

  /** `verifyPayment`. `random` is the value `Math.random()` returned. Both saves
      validate what was loaded: an order whose user details fail `required` is not
      saved at all, and a book that fails its schema after the decrement is not
      saved while the order stays Paid. With a missing book the order has already
      been saved as Paid when `order.bookId._id` throws. Each failure is a 500. */
  method VerifyPayment(db: Database, hmac: (string, string) -> string, secret: string,
                       cb: Callback, now: int, random: real)
    returns (res: Response<Receipt>)
    requires db.Valid() && 0.0 <= random < 1.0
    modifies db
    ensures db.Valid()
    ensures old(db.StockNonNegative()) ==> db.StockNonNegative()
    ensures !SignatureMatches(hmac, secret, cb) ==>
              res == Error(400, "Invalid payment signature")
              && db.orders == old(db.orders) && db.books == old(db.books)
    ensures SignatureMatches(hmac, secret, cb) && cb.orderId !in old(db.orders) ==>
              res == Error(404, "Order not found")
              && db.orders == old(db.orders) && db.books == old(db.books)
    ensures SignatureMatches(hmac, secret, cb) && cb.orderId in old(db.orders)
            && !UserDetailsJsOk(old(db.orders)[cb.orderId].userDetails) ==>
              res == Error(500, "Error verifying payment")
              && db.orders == old(db.orders) && db.books == old(db.books)
    ensures SignatureMatches(hmac, secret, cb) && cb.orderId in old(db.orders)
            && UserDetailsJsOk(old(db.orders)[cb.orderId].userDetails) ==>
              var o := old(db.orders)[cb.orderId];
              var date := DeliveryDate(now, DeliveryDays(random));
              && db.orders == old(db.orders)[cb.orderId := Save(o, PaidOrder(o, cb, date, o.updatedAt), now)]
              && (o.bookId !in old(db.books) ==>
                    db.books == old(db.books) && res == Error(500, "Error verifying payment"))
              && (o.bookId in old(db.books) ==>
                    var b := old(db.books)[o.bookId];
                    if b.stock > 0 && !BookJsOk(AfterSale(b, now)) then
                      db.books == old(db.books) && res == Error(500, "Error verifying payment")
                    else
                      && db.books == old(db.books)[o.bookId := AfterSale(b, now)]
                      && res == Ok(Receipt(cb.orderId, cb.razorpayPaymentId, date, b.title, o.totalAmount)))
  {
    if cb.razorpaySignature != hmac(secret, SignedText(cb)) {
      return Error(400, "Invalid payment signature");
    }
    if cb.orderId !in db.orders {
      return Error(404, "Order not found");
    }
    var order := db.orders[cb.orderId];
    if !UserDetailsJsOk(order.userDetails) {
      return Error(500, "Error verifying payment");
    }
    var deliveryDate := DeliveryDate(now, DeliveryDays(random));
    var saved := Save(order, PaidOrder(order, cb, deliveryDate, order.updatedAt), now);
    db.orders := db.orders[cb.orderId := saved];
    if order.bookId !in db.books {
      return Error(500, "Error verifying payment");
    }
    var book := db.books[order.bookId];
    if book.stock > 0 {
      var sold := book.(stock := book.stock - 1, updatedAt := now);
      if !BookJsOk(sold) {
        return Error(500, "Error verifying payment");
      }
      db.books := db.books[order.bookId := sold];
    }
    res := Ok(Receipt(saved.orderId, cb.razorpayPaymentId, deliveryDate, book.title, saved.totalAmount));
  }

  /** `paymentFailed`: an existing order becomes Failed whatever its status was; an
      unknown order is ignored and the reply is a success. An order whose loaded
      user details fail `required` cannot be saved: 500, nothing written. */
  method PaymentFailed(db: Database, orderId: string, now: int) returns (res: Response<string>)
    requires db.Valid()
    modifies db
    ensures db.Valid() && db.books == old(db.books)
    ensures res.Error? <==> orderId in old(db.orders) && !UserDetailsJsOk(old(db.orders)[orderId].userDetails)
    ensures res.Error? ==> res == Error(500, "Error recording payment failure") && db.orders == old(db.orders)
    ensures res.Ok? ==> res.value == "Payment failure recorded"
    ensures orderId !in old(db.orders) ==> db.orders == old(db.orders)
    ensures res.Ok? && orderId in old(db.orders) ==>
              var o := old(db.orders)[orderId];
              && db.orders == old(db.orders)[orderId := Save(o, FailedOrder(o, o.updatedAt), now)]
              && db.orders[orderId].paymentStatus == Failed
  {
    if orderId in db.orders {
      var order := db.orders[orderId];
      if !UserDetailsJsOk(order.userDetails) {
        return Error(500, "Error recording payment failure");
      }
      db.orders := db.orders[orderId := Save(order, FailedOrder(order, order.updatedAt), now)];
    }
    res := Ok("Payment failure recorded");
  }
}

=== FILE: payment_py.dfy ===
/** The FastAPI payment controller (server/controllers/payment_controller.py) with
    the 500 that server/routes/payment_routes.py makes of any other exception.
    Every `update_one` writes `updatedAt`, so a write happens whenever the order
    exists, unless the `$set` leaves the document exactly as it was. */
module PaymentPy {
  import opened Common
  import opened OrderModel
  import opened BookModel
  import opened Store
  import opened Gateway
  import PaymentJs

  /** Python's `int(x)`: truncation toward zero. */
  function TruncateToInt(x: real): (n: int)
    ensures x >= 0.0 ==> n as real <= x < n as real + 1.0
    ensures x < 0.0 ==> n as real - 1.0 < x <= n as real
  {
    if x >= 0.0 then x.Floor else -((-x).Floor)
  }

  /** `int(totalAmount * 100)`: the total in paise, any fraction of a paisa dropped
      toward zero. */
  function AmountInPaise(total: real): (p: int)
    ensures total >= 0.0 ==> p as real <= total * 100.0 < p as real + 1.0
    ensures total < 0.0 ==> p as real - 1.0 < total * 100.0 <= p as real
  {
    TruncateToInt(total * 100.0)
  }

  /** The two backends ask Razorpay for the same amount exactly when the total is a
      whole number of paise. */
  lemma AmountsAgree(total: real)
    ensures AmountInPaise(total) as real == PaymentJs.AmountInPaise(total)
            <==> (total * 100.0).Floor as real == total * 100.0
  {
  }

  /** `create_payment_order`. `sent` is the request handed to the Razorpay client.
      A missing book does not stop the call: its title note is then empty. */
  method CreatePaymentOrder(db: Database, orderId: string, keyId: string,
                            gateway: GatewayRequest -> GatewayReply, now: int)
    returns (res: Response<PaymentOrderData>, sent: Option<GatewayRequest>)
    requires db.Valid()
    modifies db
    ensures db.Valid() && db.books == old(db.books)
    ensures orderId !in old(db.orders) ==>
              res == Error(404, "Order not found") && sent.None? && db.orders == old(db.orders)
    ensures orderId in old(db.orders) ==>
              var o := old(db.orders)[orderId];
              var title := if o.bookId in old(db.books) then old(db.books)[o.bookId].title else "";
              && sent == Some(GatewayRequest(AmountInPaise(o.totalAmount) as real, "INR", orderId, Notes(orderId, title)))
              && (gateway(sent.value).Unavailable? ==>
                    res.Error? && res.status == 500 && db.orders == old(db.orders))
              && (gateway(sent.value).Created? ==>
                    var g := gateway(sent.value).order;
                    && res == Ok(PaymentOrderData(g.id, g.amount, g.currency, keyId))
                    && db.orders == old(db.orders)[orderId := o.(razorpayOrderId := Some(g.id), updatedAt := now)])
  {
    if orderId !in db.orders {
      return Error(404, "Order not found"), None;
    }
    var order := db.orders[orderId];
    var title := if order.bookId in db.books then db.books[order.bookId].title else "";
    var options := GatewayRequest(AmountInPaise(order.totalAmount) as real, "INR", order.orderId, Notes(order.orderId, title));
    sent := Some(options);
    var reply := gateway(options);
    if reply.Unavailable? {
      return Error(500, reply.reason), sent;
    }
    var g := reply.order;
    db.orders := db.orders[orderId := order.(razorpayOrderId := Some(g.id), updatedAt := now)];
    res := Ok(PaymentOrderData(g.id, g.amount, g.currency, keyId));
  }

  /** `verify_payment`. `days` is the value `random.randint(5, 7)` returned. The
      signature is checked before the database is read at all. */
  method VerifyPayment(db: Database, hmac: (string, string) -> string, secret: string,
                       cb: Callback, now: int, days: int)
    returns (res: Response<Receipt>)
    requires db.Valid() && 5 <= days <= 7
    modifies db
    ensures db.Valid()
    ensures old(db.StockNonNegative()) ==> db.StockNonNegative()
    ensures !SignatureMatches(hmac, secret, cb) ==>
              res == Error(400, "Invalid payment signature")
              && db.orders == old(db.orders) && db.books == old(db.books)
    ensures SignatureMatches(hmac, secret, cb) && cb.orderId !in old(db.orders) ==>
              res == Error(404, "Order not found")
              && db.orders == old(db.orders) && db.books == old(db.books)
    ensures SignatureMatches(hmac, secret, cb) && cb.orderId in old(db.orders) ==>
              var o := old(db.orders)[cb.orderId];
              var date := DeliveryDate(now, days);
              && db.orders == old(db.orders)[cb.orderId := PaidOrder(o, cb, date, now)]
              && (o.bookId in old(db.books) ==>
                    && db.books == old(db.books)[o.bookId := AfterSale(old(db.books)[o.bookId], now)]
                    && res == Ok(Receipt(cb.orderId, cb.razorpayPaymentId, date,
                                         old(db.books)[o.bookId].title, o.totalAmount)))
              && (o.bookId !in old(db.books) ==>
                    && db.books == old(db.books)
                    && res == Ok(Receipt(cb.orderId, cb.razorpayPaymentId, date, "", o.totalAmount)))
  {
    if hmac(secret, SignedText(cb)) != cb.razorpaySignature {
      return Error(400, "Invalid payment signature");
    }
    if cb.orderId !in db.orders {
      return Error(404, "Order not found");
    }
    var order := db.orders[cb.orderId];
    var book := if order.bookId in db.books then Some(db.books[order.bookId]) else None;
    var deliveryDate := DeliveryDate(now, days);
    db.orders := db.orders[cb.orderId := PaidOrder(order, cb, deliveryDate, now)];
    if book.Some? && book.value.stock > 0 {
      db.books := db.books[book.value.id := book.value.(stock := book.value.stock - 1, updatedAt := now)];
    }
    var updated := db.orders[cb.orderId];
    var title := if book.Some? then book.value.title else "";
    res := Ok(Receipt(cb.orderId, cb.razorpayPaymentId, deliveryDate, title, updated.totalAmount));
  }

  /** `payment_failed`: sets Failed and answers 404 when `update_one` modified no
      document, which is when the order is unknown or is already Failed with the
      same `updatedAt`. */
  method PaymentFailed(db: Database, orderId: string, now: int) returns (res: Response<string>)
    requires db.Valid()
    modifies db
    ensures db.Valid() && db.books == old(db.books)
    ensures res.Error? <==> orderId !in old(db.orders) || FailedOrder(old(db.orders)[orderId], now) == old(db.orders)[orderId]
    ensures res.Error? ==> res == Error(404, "Order not found") && db.orders == old(db.orders)
    ensures res.Ok? ==> res.value == "Payment failure recorded"
                        && db.orders == old(db.orders)[orderId := FailedOrder(old(db.orders)[orderId], now)]
    ensures orderId in old(db.orders) ==> db.orders[orderId].paymentStatus == Failed
  {
    if orderId !in db.orders {
      return Error(404, "Order not found");
    }
    var order := db.orders[orderId];
    var failed := FailedOrder(order, now);
    if failed == order {
      return Error(404, "Order not found");
    }
    db.orders := db.orders[orderId := failed];
    res := Ok("Payment failure recorded");
  }
}

=== FILE: scenarios.dfy ===
/** Runs of several handlers in a row, stated as methods whose contracts follow
    from the handlers' own: what a sequence of requests does to the shared store. */
module Scenarios {
  import opened Common
  import opened OrderModel
  import opened BookModel
  import opened Store
  import opened Gateway
  import PaymentJs
  import PaymentPy
  import OrdersJs
  import OrdersPy

  /** Neither backend remembers that an order is already Paid: replaying one valid
      callback to the Express handler takes a second copy out of stock. */
  method ReplayedVerificationJs(db: Database, hmac: (string, string) -> string, secret: string,
                                cb: Callback, now: int, r1: real, r2: real)
    returns (first: Response<Receipt>, second: Response<Receipt>)
    requires db.Valid() && 0.0 <= r1 < 1.0 && 0.0 <= r2 < 1.0
    requires SignatureMatches(hmac, secret, cb)
    requires cb.orderId in db.orders && db.orders[cb.orderId].bookId in db.books
    requires UserDetailsJsOk(db.orders[cb.orderId].userDetails) && BookJsOk(db.books[db.orders[cb.orderId].bookId])
    requires db.books[db.orders[cb.orderId].bookId].stock >= 2
    modifies db
    ensures first.Ok? && second.Ok?
    ensures var b := old(db.orders)[cb.orderId].bookId;
            b in db.books && db.books[b].stock == old(db.books)[b].stock - 2
    ensures cb.orderId in db.orders && db.orders[cb.orderId].paymentStatus == Paid
  {
    first := PaymentJs.VerifyPayment(db, hmac, secret, cb, now, r1);
    second := PaymentJs.VerifyPayment(db, hmac, secret, cb, now, r2);
  }

  /** The same replay against the FastAPI handler. */
  method ReplayedVerificationPy(db: Database, hmac: (string, string) -> string, secret: string,
                                cb: Callback, now: int, d1: int, d2: int)
    returns (first: Response<Receipt>, second: Response<Receipt>)
    requires db.Valid() && 5 <= d1 <= 7 && 5 <= d2 <= 7
    requires SignatureMatches(hmac, secret, cb)
    requires cb.orderId in db.orders && db.orders[cb.orderId].bookId in db.books
    requires db.books[db.orders[cb.orderId].bookId].stock >= 2
    modifies db
    ensures first.Ok? && second.Ok?
    ensures var b := old(db.orders)[cb.orderId].bookId;
            b in db.books && db.books[b].stock == old(db.books)[b].stock - 2
    ensures cb.orderId in db.orders && db.orders[cb.orderId].paymentStatus == Paid
  {
    first := PaymentPy.VerifyPayment(db, hmac, secret, cb, now, d1);
    second := PaymentPy.VerifyPayment(db, hmac, secret, cb, now, d2);
  }

  /** Reporting a failure for an unknown order: the Express handler answers success
      and the FastAPI handler answers 404, and neither writes anything. */
  method UnknownOrderFailure(db: Database, orderId: string, now: int)
    returns (js: Response<string>, py: Response<string>)
    requires db.Valid() && orderId !in db.orders
    modifies db
    ensures js.Ok? && py == Error(404, "Order not found")
    ensures db.orders == old(db.orders) && db.books == old(db.books)
  {
    js := PaymentJs.PaymentFailed(db, orderId, now);
    py := PaymentPy.PaymentFailed(db, orderId, now);
  }

  /** A failure reported after a successful payment overwrites Paid with Failed in
      the Express backend; the payment fields stay recorded. */
  method FailureAfterPaymentJs(db: Database, orderId: string, now: int) returns (res: Response<string>)
    requires db.Valid() && orderId in db.orders && db.orders[orderId].paymentStatus == Paid
    requires UserDetailsJsOk(db.orders[orderId].userDetails)
    modifies db
    ensures res.Ok?
    ensures orderId in db.orders && db.orders[orderId].paymentStatus == Failed
    ensures db.orders[orderId].paymentId == old(db.orders)[orderId].paymentId
    ensures db.orders[orderId].deliveryDate == old(db.orders)[orderId].deliveryDate
  {
    res := PaymentJs.PaymentFailed(db, orderId, now);
  }

  /** The same overwrite in the FastAPI backend, which does not look at the user
      details at all. */
  method FailureAfterPaymentPy(db: Database, orderId: string, now: int) returns (res: Response<string>)
    requires db.Valid() && orderId in db.orders && db.orders[orderId].paymentStatus == Paid
    modifies db
    ensures res.Ok?
    ensures orderId in db.orders && db.orders[orderId].paymentStatus == Failed
    ensures db.orders[orderId].paymentId == old(db.orders)[orderId].paymentId
    ensures db.orders[orderId].deliveryDate == old(db.orders)[orderId].deliveryDate
  {
    res := PaymentPy.PaymentFailed(db, orderId, now);
  }

  /** An order placed through FastAPI with an empty name (Pydantic constrains only
      the pincode and mobile lengths) cannot be paid through Express: the
      `order.save()` there fails `required`, answers 500 and writes nothing. The
      FastAPI handler accepts the same callback and records the sale. */
  method PythonOrderPaidThroughExpress(db: Database, bookId: string, details: UserDetails, newId: string,
                                       now: nat, suffix: nat, hmac: (string, string) -> string, secret: string,
                                       razorpayOrderId: string, paymentId: string, r: real, days: int)
    returns (placed: Response<Order>, js: Response<Receipt>, py: Response<Receipt>)
    requires db.Valid() && 100 <= suffix <= 999 && 0.0 <= r < 1.0 && 5 <= days <= 7
    requires UserDetailsPyOk(details) && details.fullName == ""
    requires Text.IsValidObjectId(bookId) && bookId in db.books && db.books[bookId].stock >= 1
    requires OrdersPy.OrderId(now, suffix) !in db.orders
    requires forall k :: k in db.orders ==> db.orders[k].id != newId
    modifies db
    ensures placed.Ok?
    ensures js == Error(500, "Error verifying payment")
    ensures py.Ok? && py.value.orderId == placed.value.orderId
    ensures placed.value.orderId in db.orders && db.orders[placed.value.orderId].paymentStatus == Paid
    ensures bookId in db.books && db.books[bookId].stock == old(db.books)[bookId].stock - 1
  {
    placed := OrdersPy.CreateOrder(db, bookId, details, newId, now, suffix);
    var orderId := placed.value.orderId;
    var signature := hmac(secret, razorpayOrderId + "|" + paymentId);
    var cb := Callback(razorpayOrderId, paymentId, signature, orderId);
    ghost var before := db.books;
    js := PaymentJs.VerifyPayment(db, hmac, secret, cb, now, r);
    assert db.books == before;
    py := PaymentPy.VerifyPayment(db, hmac, secret, cb, now, days);
  }

  /** Placing an order for a book in stock, opening its Razorpay order and paying:
      the order ends Paid at price + 50 and the book has one copy fewer. */
  method PlaceAndPayJs(db: Database, bookId: string, details: UserDetails, newId: string, now: nat,
                       r: real, keyId: string, gateway: GatewayRequest -> GatewayReply,
                       hmac: (string, string) -> string, secret: string, paymentId: string, r2: real)
    returns (placed: Response<Order>, session: Response<PaymentOrderData>, paid: Option<Response<Receipt>>)
    requires db.Valid() && 0.0 <= r < 1.0 && 0.0 <= r2 < 1.0
    requires Text.IsValidObjectId(bookId) && bookId in db.books && db.books[bookId].stock >= 1
    requires BookJsOk(db.books[bookId])
    requires UserDetailsJsOk(details) && OrdersJs.OrderId(now, OrdersJs.Suffix(r)) !in db.orders
    requires forall k :: k in db.orders ==> db.orders[k].id != newId
    modifies db
    ensures placed.Ok? && placed.value.totalAmount == old(db.books)[bookId].price + 50.0
    ensures session.Ok? <==> gateway(GatewayRequest(PaymentJs.AmountInPaise(placed.value.totalAmount), "INR",
                                                   placed.value.orderId, Notes(placed.value.orderId, old(db.books)[bookId].title))).Created?
    ensures session.Error? ==> paid.None?
    ensures session.Ok? ==>
              && paid.Some? && paid.value.Ok?
              && placed.value.orderId in db.orders && db.orders[placed.value.orderId].paymentStatus == Paid
              && bookId in db.books && db.books[bookId].stock == old(db.books)[bookId].stock - 1
  {
    placed := OrdersJs.CreateOrder(db, bookId, details, newId, now, r);
    var sent;
    session, sent := PaymentJs.CreatePaymentOrder(db, placed.value.orderId, keyId, gateway, now);
    if session.Error? {
      return placed, session, None;
    }
    var signature := hmac(secret, session.value.razorpayOrderId + "|" + paymentId);
    var cb := Callback(session.value.razorpayOrderId, paymentId, signature, placed.value.orderId);
    var receipt := PaymentJs.VerifyPayment(db, hmac, secret, cb, now, r2);
    paid := Some(receipt);
  }
}

=== FILE: store.dfy ===
/** The MongoDB database both backends share, reduced to two in-memory maps: the
    orders collection keyed by `orderId` (unique in server/models/Order.js) and the
    books collection keyed by `_id`. Also the two query shapes the controllers use:
    lookup by `_id` and "newest first" ordering on a creation time. */
module Store {
  import opened Common
  import opened OrderModel
  import opened BookModel

  /** An order with its `bookId` joined to the book it names (`populate`, `$lookup`). */
  datatype Populated = Populated(order: Order, book: Option<Book>)

  class Database {
    var orders: map<string, Order>
    var books: map<string, Book>

    /** Keys agree with the records, and every order keeps the order invariant. */
    ghost predicate Valid()
      reads this
    {
      && (forall k :: k in orders ==> orders[k].orderId == k && OrderInvariant(orders[k]))
      && (forall k :: k in books ==> books[k].id == k)
    }

    /** No two orders share an `_id`. */
    ghost predicate OrderIdsDistinct()
      reads this
    {
      forall k, k' :: k in orders && k' in orders && k != k' ==> orders[k].id != orders[k'].id
    }

    /** The schema constraint `stock >= 0` holds for every stored book. */
    ghost predicate StockNonNegative()
      reads this
    {
      forall k :: k in books ==> books[k].stock >= 0
    }

    constructor ()
      ensures Valid() && StockNonNegative() && OrderIdsDistinct()
      ensures orders == map[] && books == map[]
    {
      orders := map[];
      books := map[];
    }

    /** Joins an order to its book; the book is absent when it was deleted. */
    function Populate(o: Order): (p: Populated)
      reads this
      ensures p.order == o
      ensures p.book.Some? <==> o.bookId in books
      ensures p.book.Some? ==> p.book.value == books[o.bookId]
    {
      Populated(o, if o.bookId in books then Some(books[o.bookId]) else None)
    }

    /** `populate('bookId')` over a list of orders, in the order of their keys. */
    method PopulateAll(keys: seq<string>) returns (res: seq<Populated>)
      requires forall j :: 0 <= j < |keys| ==> keys[j] in orders
      ensures |res| == |keys|
      ensures forall j :: 0 <= j < |keys| ==> res[j] == Populate(orders[keys[j]])
    {
      res := [];
      for i := 0 to |keys|
        invariant |res| == i
        invariant forall j :: 0 <= j < i ==> res[j] == Populate(orders[keys[j]])
      {
        res := res + [Populate(orders[keys[i]])];
      }
    }

    /** `findById` / `$match {_id}` on the orders collection. */
    method FindOrderById(id: string) returns (key: Option<string>)
      ensures key.Some? ==> key.value in orders && orders[key.value].id == id
      ensures key.None? ==> forall k :: k in orders ==> orders[k].id != id
    {
      var todo := orders.Keys;
      while todo != {}
        invariant todo <= orders.Keys
        invariant forall k :: k in orders && k !in todo ==> orders[k].id != id
        decreases |todo|
      {
        var k :| k in todo;
        if orders[k].id == id {
          return Some(k);
        }
        todo := todo - {k};
      }
      return None;
    }
  }

  /** `ks` lists keys of `score`, newest (largest score) first. */
  ghost predicate SortedDesc(ks: seq<string>, score: map<string, int>)
  {
    && (forall i :: 0 <= i < |ks| ==> ks[i] in score)
    && (forall i, j :: 0 <= i < j < |ks| ==> score[ks[i]] >= score[ks[j]])
  }

  ghost predicate Distinct(ks: seq<string>)
  {
    forall i, j :: 0 <= i < j < |ks| ==> ks[i] != ks[j]
  }

  /** Inserts `k` into a newest-first list, before every key that is not newer. */
  function InsertByScore(k: string, ks: seq<string>, score: map<string, int>): (r: seq<string>)
    requires k in score && SortedDesc(ks, score)
    ensures |r| == |ks| + 1 && SortedDesc(r, score)
    ensures forall x :: x in r <==> x == k || x in ks
    ensures Distinct(ks) && k !in ks ==> Distinct(r)
    decreases |ks|
  {
    if ks == [] || score[k] >= score[ks[0]] then [k] + ks
    else
      var rest := InsertByScore(k, ks[1..], score);
      assert forall j :: 0 <= j < |rest| ==> score[ks[0]] >= score[rest[j]] by {
        forall j | 0 <= j < |rest| ensures score[ks[0]] >= score[rest[j]] {
          assert rest[j] in rest;
          if rest[j] != k {
            var m :| 0 <= m < |ks[1..]| && ks[1..][m] == rest[j];
            assert ks[m + 1] == rest[j];
          }
        }
      }
      assert Distinct(ks) ==> ks[0] !in ks[1..] by {
        if Distinct(ks) {
          forall m | 0 <= m < |ks[1..]| ensures ks[1..][m] != ks[0] {
            assert ks[1..][m] == ks[m + 1];
          }
        }
      }
      [ks[0]] + rest
  }

  /** `sort({createdAt: -1})`: every key of `score` exactly once, newest first.
      Keys with equal scores may come in any order, as in MongoDB. */
  method SortNewestFirst(score: map<string, int>) returns (ks: seq<string>)
    ensures SortedDesc(ks, score) && Distinct(ks)
    ensures forall k :: k in score <==> k in ks
  {
    ks := [];
    var todo := score.Keys;
    while todo != {}
      invariant todo <= score.Keys
      invariant SortedDesc(ks, score) && Distinct(ks)
      invariant forall k :: k in ks <==> k in score && k !in todo
      decreases |todo|
    {
      var k :| k in todo;
      ks := InsertByScore(k, ks, score);
      todo := todo - {k};
    }
  }

  /** `.to_list(n)` after a sort: the first `n` keys, and every key left out is no
      newer than any key kept. */
  method TakeNewest(score: map<string, int>, n: nat) returns (ks: seq<string>)
    ensures SortedDesc(ks, score) && Distinct(ks) && |ks| <= n
    ensures forall k :: k in ks ==> k in score
    ensures forall k :: k in score && k !in ks ==>
              |ks| == n && forall i :: 0 <= i < |ks| ==> score[ks[i]] >= score[k]
  {
    var all := SortNewestFirst(score);
    ks := if |all| <= n then all else all[..n];
    forall k | k in score && k !in ks
      ensures |ks| == n && forall i :: 0 <= i < |ks| ==> score[ks[i]] >= score[k]
    {
      var j :| 0 <= j < |all| && all[j] == k;
      assert j >= |ks|;
    }
  }
}

=== FILE: text.dfy ===
/** Character classes and string operations the JavaScript and Python code rely on:
    `String.prototype.trim`, the regular-expression classes `\s` and `\d`, decimal
    rendering of integers in template strings, and the hexadecimal form of a
    MongoDB ObjectId. */
module Text {

  /** ECMAScript WhiteSpace and LineTerminator code points: exactly what `trim()`
      strips and what the regular-expression class `\s` matches. */
  predicate IsSpace(c: char)
  {
    || c == '\t' || c == '\n' || c == '\U{B}' || c == '\U{C}' || c == '\r' || c == ' '
    || c == '\U{A0}' || c == '\U{1680}' || ('\U{2000}' <= c <= '\U{200A}')
    || c == '\U{2028}' || c == '\U{2029}' || c == '\U{202F}' || c == '\U{205F}'
    || c == '\U{3000}' || c == '\U{FEFF}'
  }

  /** The regular-expression class `\d`: ASCII digits only. */
  predicate IsDigit(c: char)
  {
    '0' <= c <= '9'
  }

  predicate IsHexDigit(c: char)
  {
    IsDigit(c) || 'a' <= c <= 'f' || 'A' <= c <= 'F'
  }

  /** A string that `trim()` turns into the empty string. */
  ghost predicate IsBlank(s: string)
  {
    forall i :: 0 <= i < |s| ==> IsSpace(s[i])
  }

  ghost predicate AllDigits(s: string)
  {
    forall i :: 0 <= i < |s| ==> IsDigit(s[i])
  }

  function TrimStart(s: string): (r: string)
    ensures |r| <= |s| && r == s[|s| - |r|..]
    ensures forall i :: 0 <= i < |s| - |r| ==> IsSpace(s[i])
    ensures r != [] ==> !IsSpace(r[0])
  {
    if s != [] && IsSpace(s[0]) then
      var r := TrimStart(s[1..]);
      assert s[1..][|s| - 1 - |r|..] == s[|s| - |r|..];
      assert forall i :: 1 <= i < |s| - |r| ==> s[i] == s[1..][i - 1];
      r
    else
      s
  }

  function TrimEnd(s: string): (r: string)
    ensures |r| <= |s| && r == s[..|r|]
    ensures forall i :: |r| <= i < |s| ==> IsSpace(s[i])
    ensures r != [] ==> !IsSpace(r[|r| - 1])
  {
    if s != [] && IsSpace(s[|s| - 1]) then
      var r := TrimEnd(s[..|s| - 1]);
      assert s[..|s| - 1][..|r|] == s[..|r|];
      assert forall i :: |r| <= i < |s| - 1 ==> s[i] == s[..|s| - 1][i];
      r
    else
      s
  }

  /** `String.prototype.trim`: white space removed from both ends. */
  function Trim(s: string): (r: string)
    ensures |r| <= |s|
    ensures r != [] ==> !IsSpace(r[0]) && !IsSpace(r[|r| - 1])
    ensures r == [] <==> IsBlank(s)
  {
    var t := TrimStart(s);
    var r := TrimEnd(t);
    assert r == [] ==> IsBlank(s) by {
      if r == [] {
        var i := |s| - |t|;
        forall k | 0 <= k < |s| ensures IsSpace(s[k]) {
          if k >= i { assert s[k] == t[k - i]; }
        }
      }
    }
    r
  }

  /** The trimmed string is an infix of the original, and everything cut off on
      either side is white space. */
  lemma TrimCutsOnlySpace(s: string)
    ensures exists i :: 0 <= i <= |s| && Trim(s) <= s[i..]
              && (forall k :: 0 <= k < i ==> IsSpace(s[k]))
              && (forall k :: i + |Trim(s)| <= k < |s| ==> IsSpace(s[k]))
  {
    var t := TrimStart(s);
    var r := TrimEnd(t);
    var i := |s| - |t|;
    assert Trim(s) == r;
    assert t == s[i..];
    assert r <= s[i..] by {
      assert r == t[..|r|];
    }
    forall k | i + |r| <= k < |s|
      ensures IsSpace(s[k])
    {
      assert s[k] == t[k - i];
    }
  }

  /** Trimming twice is trimming once. */
  lemma TrimIdempotent(s: string)
    ensures Trim(Trim(s)) == Trim(s)
  {
    var t := Trim(s);
    if t != [] {
      assert TrimStart(t) == t;
      assert TrimEnd(t) == t;
    }
  }

  /** JavaScript's `.length`: the number of UTF-16 code units, two for a character
      outside the Basic Multilingual Plane and one for any other. */
  function Utf16Length(s: string): (n: nat)
    ensures |s| <= n <= 2 * |s|
    ensures (forall i :: 0 <= i < |s| ==> s[i] as int < 0x1_0000) ==> n == |s|
  {
    if s == [] then 0
    else (if s[0] as int >= 0x1_0000 then 2 else 1) + Utf16Length(s[1..])
  }

  /** Two emoji are two characters but four UTF-16 code units. */
  lemma AstralCharsCountTwice()
    ensures |"\U{1F600}\U{1F600}"| == 2 && Utf16Length("\U{1F600}\U{1F600}") == 4
  {
  }

  predicate IsValidObjectId(s: string)
  {
    |s| == 24 && forall i :: 0 <= i < |s| ==> IsHexDigit(s[i])
  }

  function DigitChar(d: nat): (c: char)
    requires d < 10
    ensures IsDigit(c) && c as int - '0' as int == d
  {
    ('0' as int + d) as char
  }

  /** Decimal rendering of a natural number, as a template string or an f-string
      prints it: no sign and no leading zero. */
  function NatToString(n: nat): (r: string)
    ensures |r| >= 1 && AllDigits(r)
    ensures r[0] == '0' ==> n == 0
  {
    if n < 10 then [DigitChar(n)] else NatToString(n / 10) + [DigitChar(n % 10)]
  }

  /** The value of a string of decimal digits (the inverse of NatToString). */
  function ParseDecimal(s: string): (n: nat)
    requires AllDigits(s)
  {
    if s == [] then 0
    else ParseDecimal(s[..|s| - 1]) * 10 + (s[|s| - 1] as int - '0' as int)
  }

  lemma {:induction false} DecimalRoundTrip(n: nat)
    ensures ParseDecimal(NatToString(n)) == n
  {
    var s := NatToString(n);
    if n >= 10 {
      DecimalRoundTrip(n / 10);
      var p := NatToString(n / 10);
      assert s == p + [DigitChar(n % 10)];
      assert s[..|s| - 1] == p;
    }
  }

  lemma NatToStringInjective(a: nat, b: nat)
    ensures NatToString(a) == NatToString(b) ==> a == b
  {
    DecimalRoundTrip(a);
    DecimalRoundTrip(b);
  }

  /** Numbers below 1000 print with one to three digits; from 100 on with exactly three. */
  lemma {:induction false} DigitCount(n: nat)
    requires n <= 999
    ensures 1 <= |NatToString(n)| <= 3
    ensures n >= 100 ==> |NatToString(n)| == 3
  {
    if n >= 10 {
      assert |NatToString(n)| == |NatToString(n / 10)| + 1;
      if n / 10 >= 10 {
        assert |NatToString(n / 10)| == |NatToString(n / 100)| + 1;
        assert n / 10 / 10 == n / 100;
      }
    }
  }
}
